=== FILE: README.md ===
# fterm configuration and command line, modelled in Dafny

fterm is a small VTE terminal. This project models the part of it that does not
depend on GTK. It covers three pieces:

- The configuration parser in `parser.c`/`parser.h`:
  - a tokenizer with whitespace and `#` comments, quoted strings and bare atoms;
  - the coercion of a value token to a string, integer or real;
  - the `name = value` loop of `init_config`;
  - the fixed-size variable store with `set_var`, `get_var`, `get_var_type` and `free_config`.
- The way `fterm.c` reads its settings from a parsed store:
  - the `GET_VAR_OR` macro;
  - the key/type table of `lookup_config`;
  - the sixteen `color<i>` keys of `parse_colors`.
- The argument loop of `main`, which picks the config path and window id and builds the shell command in `cmd[32]`.

Modules follow the source:

| module | file | models |
|---|---|---|
| `Values` | values.dfy | `parser.h`: constants, tags, `struct value`, the error results that replace `exit(1)`, C-string truncation at NUL |
| `Digits` | digits.dfy | `isdigit`, `strtol` (base 10), `sprintf("%d")` |
| `Lexer` | lexer.dfy | `skip_space`, `next_token` (the corrected reading, and its two loops as written), the token stream |
| `Coerce` | coerce.dfy | `token_to_value` |
| `Store` | store.dfy | `set_var`, `get_var`, `get_var_type`, `free_config` |
| `Parser` | parser.dfy | the `init_config` loop, and its reading as a sliding window over the token stream |
| `Settings` | settings.dfy | `GET_VAR_OR`, `lookup_config`, `parse_colors`, the built-in defaults and palette |
| `Args` | args.dfy | the argv loop of `main` and the `cmd` array |

The file is an in-memory string, not a `FILE *`. Every `exit(1)` becomes an
`Err` with its own error kind. Undefined behaviour also becomes an error:

- An unterminated quote never stops the C loop, which pushes EOF until it overruns the buffer. It is `UnterminatedString`.
- A token of more than 256 characters overruns the buffer at its 257th character. It is `TokenTooLong`.
- A value that starts with a digit and fills all 256 bytes with no NUL leaves `strstr` and `strtol` without a terminator. It is `NumberFillsBuffer`.
- A new name when all 1024 entries are used writes past the array. `Parser.Bind` returns `StoreFull`; `Store.SetVar` has it as a precondition.

Errors are produced lazily in reading order. The first error the C program would
hit is the one returned. A missing value after `=` at the end of the input is
`UnexpectedEof` (`Parser.MissingValue`). When a coercion or a full store fails
earlier, that error comes first. The sliding-window reading of the token stream
(`Parser.LoopIsWindow`) agrees with the loop on errors as well as on successes,
whenever the token stream can be read.

Behaviour of the code that the model keeps:

- The parser has no `include` directive.
- The store keeps the code's fixed bound of 1024 entries.
- A parse or type error ends the program: it is the result, and there is no fall-back to the built-in settings.
- A digit-leading token is an integer when no `.` appears before its first NUL. Text after the digits is ignored, as `strtol` ignores it, so `42xyz` is `Int(42)`.
- A digit-leading token with a `.` before its first NUL is a real, for example `1.2.3`. No digits are required after the `.`.
- No sign is accepted: `-1` is an unknown value.
- The `=` test is `strncmp(tok, "=", tok.sz)`. It also accepts a token that continues `=` with a NUL.
- A token after a name that is neither `=` nor the end is skipped silently. The name is dropped and the token becomes the next candidate name.
- `GET_VAR_OR` returns the default only when the key is absent. A present key of another type is the fatal type error, not the default.
- The argv loop copies `argv[i..MIN(argc,30)]` into `cmd[2..]`. A command that starts at argv index 30 or later therefore reaches the shell as a bare `-c` (`Args.CommandLine`).

## Model

| member | source | states |
|---|---|---|
| Values.TypeName | parser.c:51-58 | codes 1, 2 and 3 are named "str", "int" and "real"; every other code, and only those, reads as "nil" |
| Values.Code | parser.h:7 | every tag has a code below 4, as the four-member enum gives |
| Values.TagCodesOrdered | parser.h:7 | the tags are numbered 0 to 3 in declaration order, and their type names tell them apart |
| Values.CStr | parser.c:104 | the C string of a buffer is its prefix before the first NUL: it holds no NUL, and where it stops short the buffer has a NUL |
| Values.CStrOfPlain | parser.c:104 | a text without NUL is its own C string |
| Digits.Strtol | parser.c:68 | `strtol` of a digit-leading token is the value of its leading digit run, clamped to LONG_MAX, and never negative |
| Digits.LeadingDigits | parser.c:68 | the run `strtol` consumes is a prefix of digits ended by a non-digit or by the end |
| Digits.ValueOfDecimal | fterm.c:43 | reading back the decimal rendering of n gives n |
| Digits.DecimalInjective | fterm.c:43 | distinct numbers render to distinct decimal strings |
| Digits.LeadingDigitsOf | parser.c:68 | a digit run followed by a non-digit is exactly what `strtol` reads |
| Digits.Decimal | fterm.c:43 | `%d` of a non-negative number is a non-empty run of digits: one digit below 10, and a leading `0` exactly when the number is 0 |
| Digits.DecimalUnique | fterm.c:43 | `%d` is the only rendering without a leading zero: every such digit string is the `%d` of the number it denotes |
| Lexer.SkipSpace | parser.c:20-29 | the result is the first position, at or after p, that is neither whitespace nor inside a `#` comment; every character passed over is one of those |
| Lexer.IsSpace | parser.c:22 | the characters `isspace` accepts in the C locale, also used by the atom loop's exit test: space, tab, newline, vertical tab, form feed and carriage return |
| Lexer.NextToken | parser.c:31-49 | the token starts where the blanks end and is empty only at end of input; it is quoted or a bare atom ended by whitespace, `#` or end of input; the unterminated-quote error occurs exactly when a quote is never closed; otherwise the only error is a token of more than 256 characters |
| Lexer.TokenAt | parser.c:31-49 | conversely, a well-formed token where the blanks end, and for an atom not followed by more atom text, is what NextToken returns |
| Lexer.Tokens | parser.c:93-99 | every token of a successfully read stream is well formed |
| Lexer.RenderTokens | parser.c:20-49 | writing well-formed tokens each followed by a whitespace character and reading from any position gives the same tokens back |
| Lexer.TokensOfRender | parser.c:20-49 | the same round trip for a whole input |
| Lexer.CommentLine | parser.c:23-26 | a comment line, from its `#` through its newline, changes no token read after it |
| Lexer.NextTokenAsWritten | parser.c:31-49 | as written, a token read is the text from where the blanks end up to where the loops stop, and the only failure is a buffer overrun |
| Lexer.AtomLoop | parser.c:43-46 | as written, the atom loop succeeds only on reading a whitespace or `#` character of the input, and the token is what was pushed before it; otherwise it overruns |
| Lexer.QuoteLoop | parser.c:35-41 | as written, the quote loop succeeds only on reading a closing quote of the input, and the token runs through that quote; otherwise it overruns |
| Lexer.AtomLoopResult | parser.c:43-46 | the atom loop returns the text up to the first whitespace or `#` when there is one within 256 characters, and overruns otherwise, also when the input ends first |
| Lexer.QuoteLoopResult | parser.c:35-41 | the quote loop returns the text through the closing quote when the token fits in 256 characters, and overruns otherwise, also when the input ends first |
| Lexer.AsWritten | parser.c:31-49 | the loops as written overrun where NextToken ends a bare atom at the end of input or reports an unclosed quote, and equal NextToken everywhere else |
| Lexer.AsWrittenDiffers | parser.c:43-46 | the two readings differ exactly on a bare atom of at most 256 characters that reaches the end of input, or on an unclosed quote |
| Lexer.AtomAtEndExample | parser.c:43-46 | `width = 900` without a final newline: the as-written loop fails on `900`, the corrected NextToken reads it |
| Coerce.TokenToValue | parser.c:60-78 | a token coerces exactly when it opens with a quote, or with a digit and has a NUL among its 256 bytes. A quote gives the text between the quotes up to its first NUL: a NUL-free prefix that stops short only at a NUL. A digit gives the value of the leading digits, capped at LONG_MAX, when no `.` comes before the NUL, and otherwise a real carrying the token. A digit-leading token filling the buffer is NumberFillsBuffer, any other the unknown-value error naming the token up to its first NUL, as `%.*s` prints it. Nil is never produced |
| Coerce.QuoteRoundTrip | parser.c:62-64 | quoting a text without quotes or NULs and coercing it gives the text back |
| Coerce.IntRoundTrip | parser.c:65-68 | the `%d` rendering of any non-negative `long` is a token that coerces to that integer |
| Coerce.TrailingTextIgnored | parser.c:66-68 | the `%d` rendering of a non-negative `long` followed by text that has no `.` and does not start with a digit coerce to the digits' value, unless they fill the buffer without a NUL |
| Coerce.Saturates | parser.c:68 | a digit string beyond LONG_MAX coerces to LONG_MAX, unless it fills the buffer without a NUL |
| Coerce.FullNumber | parser.c:65-68 | 256 digits with no NUL leave `strstr` and `strtol` no terminator: NumberFillsBuffer |
| Coerce.TrailingTextExample | parser.c:66-68 | `42xyz` is the integer 42 |
| Coerce.RealExample | parser.c:69-71 | `1.2.3` is a real |
| Coerce.SignExample | parser.c:73-75 | `-1` is the unknown-value error |
| Store.Find | parser.c:123-125 | the index found is the first entry with that name; no index means no entry has the name |
| Store.GetVar | parser.c:134-141 | the lookup returns the value of the first entry with the name, Nil when there is none, and in a store of unique names the value of any entry with the name |
| Store.SetVar | parser.c:122-132 | overwriting keeps the size and every name's position; a new name is appended; afterwards the name holds the new value and every other name looks up as before; unique names stay unique; the store stays within bounds |
| Store.GetVarType | parser.c:143-151 | the strict lookup succeeds exactly when the stored tag is the one asked for, and then returns the stored value; otherwise it is the type error naming the expected and the actual type |
| Store.FreeConfig | parser.c:113-120 | no entry stays live and every lookup is Nil |
| Store.SetVarOverwrites | parser.c:122-132 | setting a name twice equals setting it once to the last value, and the second set does not grow the store |
| Store.GetVarTypeAbsent | parser.c:143-151 | the strict lookup of an absent name fails, reporting "nil" as the actual type |
| Store.GetVarTypeAfterSet | parser.c:143-151 | a strict lookup of a name just set succeeds exactly for the tag of the value set, and then returns that value |
| Parser.Bind | parser.c:131 | binding fails exactly when the name is new and the store is full; otherwise the name holds the value, other names are unchanged and the size grows by one only for a new name |
| Parser.IsAssign | parser.c:98 | the `=` test, `strncmp` over the token's length, accepts exactly the non-empty tokens whose C string is `=` |
| Parser.NameOf | parser.c:104 | the name a token binds is its prefix up to its first NUL, quotes kept |
| Parser.Loop | parser.c:92-106 | on success the loop keeps the store within bounds, keeps names unique, never stores Nil and never shrinks the store |
| Parser.Parse | parser.c:92-110 | a successful parse gives a bounded store of unique names, none holding Nil |
| Parser.BindKeepsAllSet | parser.c:104 | binding a coerced value keeps every entry set |
| Parser.LoopIsWindow | parser.c:94-106 | from any state the loop fails when the rest of the input does not tokenize. Otherwise its result, success or first error, equals binding in order every token followed by `=` to the token after that `=`, then failing with `UnexpectedEof` on a trailing `=` |
| Parser.ParseIsWindow | parser.c:92-106 | the same for a whole input from an empty store |
| Parser.MissingValue | parser.c:98-103 | an `=` with no token after it is the unexpected-EOF error, whatever the store and candidate name |
| Parser.MissingValueExample | parser.c:99-103 | `k =` is the unexpected-EOF error |
| Parser.AssignAsValueExample | parser.c:99-104 | in `a = =` the second `=` is the value, and its coercion fails with the unknown-value error |
| Parser.ApplyAllGet | parser.c:104 | after binding pairs in order, a name holds the value of its last pair, or its earlier value when no pair names it |
| Parser.GetAfterParse | parser.c:92-106 | after a successful parse, a name holds the coerced value of its last `name = value` in the input, and is Nil when there is none |
| Parser.AssignIsEquals | parser.c:98 | for tokens without NUL the `=` test is equality with "=" |
| Parser.AssignIsNoValue | parser.c:98 | a token that passes the `=` test never coerces to a value |
| Parser.UnterminatedExample | parser.c:35-39 | `key = "abc` is the unterminated-string error |
| Parser.ApplyFresh | parser.c:122-132 | binding distinct names that are new to the store appends one entry per pair, in order |
| Parser.ThreeBindings | parser.c:92-106 | an input whose tokens are three bindings of distinct names parses to a store of three entries in file order |
| Parser.SampleFile | parser.c:20-106 | a file with the comment line `# fterm`, then `width = 900`, `height = 500` and `title = "Terminal"` on their own lines, parses to width 900, height 500 and title Terminal, in that order |
| Settings.ToCInt | fterm.c:54-55 | storing a `long` into an `int` gives a 32-bit value congruent to it modulo 2^32, and leaves values that fit unchanged |
| Settings.GetVarOr | fterm.c:25-26 | the macro succeeds exactly when the key is absent or of the asked type; it gives the stored value when present and the default when absent; a present key of another type is the type error |
| Settings.ReadScalars | fterm.c:54-59 | the scalar lookups succeed exactly when all six keys are acceptable; every setting becomes its stored value or keeps its current one; width and height wrap to 32 bits; a failure is the first unacceptable key in table order |
| Settings.ParseColors | fterm.c:40-46 | the colour lookups succeed exactly when all colour keys are absent or strings; each colour becomes its stored string or keeps its current one; a failure is the first offending colour key |
| Settings.LookupConfig | fterm.c:53-60 | all 22 lookups succeed exactly when every key is absent or of its type, and the error is the first failing key in reading order; on success every setting is its stored or current value and the result is well formed |
| Settings.Load | fterm.c:52-66 | with no file the settings are kept and flagged as defaults; otherwise loading succeeds exactly when the file parses and all keys are acceptable, and a parse error is the result |
| Settings.LoadScalar | fterm.c:54-59 | a loaded scalar setting is the coerced value of the file's last binding of its key (width and height wrapped), or keeps its current value when the file does not bind the key |
| Settings.LoadColor | fterm.c:40-46 | the same for each colour and its `color<i>` key |
| Settings.KeysDistinct | fterm.c:54-59 | the 22 keys of the table are pairwise distinct |
| Settings.KeyAt | fterm.c:54-59 | the key/type table: no key is nil-typed, the string-typed keys are those from `title` on, and the colour slots are exactly the keys starting with `c`, each being `color` and more |
| Settings.ColorKey | fterm.c:43 | the key `sprintf("color%d", i)` builds: `color` followed by the `%d` of i |
| Settings.ColorKeyInjective | fterm.c:43 | distinct colour indices give distinct keys |
| Settings.ColorKeyEnds | fterm.c:40-46 | all sixteen keys: `color` and one digit for 0 to 9, `color1` and one digit for 10 to 15 |
| Settings.LookupEmpty | fterm.c:54-60 | an empty store keeps every setting |
| Settings.DefaultsKept | fterm.c:13-23 | the built-in settings are well formed and stay in force when there is no file or the file binds nothing |
| Settings.LookupStable | fterm.c:53-60 | looking up the same store again, starting from the result of the first lookup, changes nothing |
| Args.CopyFrom | fterm.c:148-149 | the copy loop puts `argv[j]` in slot `j-i+2` for every j below `MIN(argc,30)` and leaves every other slot alone |
| Args.Command | fterm.c:146-150 | slot 0 is left for the shell, slot 1 is "-c", slot k from 2 on holds argv[i+k-2] while that index is below `MIN(argc,30)`, and every other slot is NULL |
| Args.Stop | fterm.c:136-145 | the loop reaches the first index, an even number of places on, that is not a config or window flag with an operand; every pair passed over is one |
| Args.LastOperand | fterm.c:142-145 | a setting is the operand of the last flag of its kind among the pairs passed over, or the value seen before when there is none |
| Args.Scan | fterm.c:136-152 | the argument at Stop decides: help shows usage, version the version line, and any other argument starts the command there; with none left there is no command. The config path and window id are the operands of the last config and window flags before Stop, or the values seen before. Slot 31 is always NULL |
| Args.Main | fterm.c:135-153 | with no argument nothing is scanned and no command is set; slot 31 is always NULL |
| Args.CommandLine | fterm.c:146-150 | the shell receives "-c" followed by argv from the command on, cut before index 30 |
| Args.ConfigOverwrites | fterm.c:142-143 | a later config flag with its operand makes any earlier config path irrelevant |
| Args.WindowOverwrites | fterm.c:144-145 | the same for the window id |
| Args.TwoConfigsExample | fterm.c:142-143 | `fterm -c a -c b` uses `b` |
| Args.OperandIsNotAFlagExample | fterm.c:142-143 | `fterm -c -h` takes `-h` as the config path and does not show usage |
| Args.HelpAfterFlagsExample | fterm.c:137-138 | `fterm -c a -h` shows usage |
| Args.CommandExample | fterm.c:146-150 | for `fterm ls -c` the shell is given the arguments `-c ls -c` |
| Args.TrailingFlagExample | fterm.c:144-150 | for `fterm -w` with no operand the shell is given `-c -w` |

## Left out

- File access is left out: `fopen`, `fclose`, `access`, `getenv("HOME")`, the default path under `~/.config` and the guard against a second `init_config` while parsing. `Settings.Load` takes the file's text, or None when the file cannot be accessed.
- Each `char` of the model's input stands for one byte of the file, so the 256 of STRING_MAX counts bytes.
- A byte 0xFF is left out. Through the signed `char` it compares equal to EOF only where `c` is tested against EOF: the loops of `skip_space` (parser.c:22,24) and the test at the start of `next_token` (parser.c:34). At the start of a token it ends the input, and the rest of the file is ignored. Inside a `#` comment it ends the comment, and since `ungetc(EOF)` pushes nothing back, the rest of that line is read as tokens. Inside an atom or a quoted string (parser.c:36-39, 43-46) it is pushed like any other byte. The model reads every character as ordinary text.
- Reals are carried as their raw token text. `strtod`, the `float` alpha and its clamping to 0..1 in `set_alpha_scale` are floating point and left out. The alpha default is the text "1.0".
- Memory ownership is left out: `strdup`, `strndup`, `free`, and the frees in `reload_config` and `free_config`. `Store.FreeConfig` only states that no entry stays live.
- `reload_config` is left out. So are the `using_default` gate and the error message printed when no file is found. Their only modelled trace is the flag returned by `Settings.Load`.
- GTK, VTE, X11, Pango, colour parsing with `gdk_rgba_parse`, key bindings and window embedding are left out.
- Slot 0 of `cmd`, the shell, is assigned later in `reload_config` and is left out. `Args.Command` leaves it NULL.
- The usage text and the version line are left out. They become the `ShowUsage` and `ShowVersion` actions.
- `char` is taken to be signed, as GCC makes it on x86. `skip_space` and `next_token` hold the byte read in a `char c` (parser.c:21, 33). Only a signed `char` can compare equal to EOF, so only then does the end of input end the token stream; with an unsigned `char` every input would overrun the buffer.
- Settings.ToCInt: the `long`-to-`int` store of width and height is implementation-defined in C. It is modelled as GCC's 32-bit wrap.
- Lexer.NextToken: a bare atom that reaches end of input ends there (see Findings). The C loop does not stop there.
- Lexer.NextToken: an unclosed quote is reported as `UnterminatedString`. The C loop overruns the buffer instead, as `Lexer.AsWritten` states.

## Findings

| source | as written | input that shows it | evidently intended | confidence | as-written member | corrected member |
|---|---|---|---|---|---|---|
| parser.c:43-46 | the atom loop stops only at whitespace or `#`; `isspace(EOF)` is false, so at end of input it keeps pushing EOF past the 256-byte buffer | a file `width = 900` with no newline after `900` | end of input ends the atom, as it ends the token stream | high; not executed | Lexer.AtomAtEndExample | Lexer.NextToken |

=== FILE: args.dfy ===
/**
 The argument loop of `main` in fterm.c: flags are read from argv[1] on until
 help or version ends the program, or the first argument that is not a
 recognised flag starts the command run through the shell.
 */
module Args {
  import opened Values

  /** Slots of the `cmd[32]` array handed to the terminal as the child's argv. */
  const CMD_SLOTS: nat := 32

  /** The argv index the command copy stops before: `MIN(argc, 30)`. */
  const COPY_LIMIT: nat := 30

  /** What the loop decides. */
  datatype Action =
    | ShowUsage          // `usage` prints the flags and exits with status 0
    | ShowVersion        // the version line, then exit with status 0
    | Launch(config: Option<string>, xid: Option<string>, cmd: seq<Option<string>>)

  predicate IsHelp(a: string)
  {
    a == "-h" || a == "--help"
  }

  predicate IsVersion(a: string)
  {
    a == "-v" || a == "--version"
  }

  predicate IsConfig(a: string)
  {
    a == "-c" || a == "--config"
  }

  predicate IsWindow(a: string)
  {
    a == "-w" || a == "--window"
  }

  /** The zero-initialised `cmd`: every slot NULL. */
  const NoCommand: seq<Option<string>> := Nulls(CMD_SLOTS)

  function Nulls(n: nat): (r: seq<Option<string>>)
    ensures |r| == n && forall k :: 0 <= k < n ==> r[k] == None
  {
    if n == 0 then [] else Nulls(n - 1) + [None]
  }

  /**
   The copy loop `for (j = i; j < MIN(argc, 30); ++j) cmd[(j-i)+2] = argv[j]`
   from j on. Slot (j-i)+2 is at most 30 because i >= 1 and j < 30.
   */
  function CopyFrom(argv: seq<string>, i: nat, j: nat, cmd: seq<Option<string>>): (r: seq<Option<string>>)
    requires 1 <= i <= j && |cmd| == CMD_SLOTS
    ensures |r| == CMD_SLOTS
    ensures forall k :: 0 <= k < CMD_SLOTS && !(j - i + 2 <= k < Min(|argv|, COPY_LIMIT) - i + 2) ==> r[k] == cmd[k]
    ensures forall k :: j - i + 2 <= k < Min(|argv|, COPY_LIMIT) - i + 2 ==> r[k] == Some(argv[i + k - 2])
    decreases COPY_LIMIT - j
  {
    if j >= Min(|argv|, COPY_LIMIT) then cmd
    else CopyFrom(argv, i, j + 1, cmd[(j - i) + 2 := Some(argv[j])])
  }

  /**
   The command branch for the argument at i: slot 1 becomes "-c" (the shell
   is to run a command string), argv[i..] goes to slots 2 onwards up to argv
   index 29, and every other slot stays NULL (slot 0 is the shell, set
   later).
   */
  function Command(argv: seq<string>, i: nat): (r: seq<Option<string>>)
    requires 1 <= i
    ensures |r| == CMD_SLOTS
    ensures r[0] == None && r[1] == Some("-c")
    ensures forall k :: 2 <= k < CMD_SLOTS ==> r[k] == if i + k - 2 < Min(|argv|, COPY_LIMIT) then Some(argv[i + k - 2]) else None
  {
    CopyFrom(argv, i, i, NoCommand[1 := Some("-c")])
  }

  /** A flag that takes the next argument when there is one. */
  predicate TakesOperand(argv: seq<string>, k: nat)
    requires k < |argv|
  {
    (IsConfig(argv[k]) || IsWindow(argv[k])) && k + 1 < |argv|
  }

  /**
   Where the flag pairs that start at i end: the first index, an even number
   of places on, that is not a config or window flag with its operand. This
   argument (if any) decides what the loop does.
   */
  function Stop(argv: seq<string>, i: nat): (k: nat)
    ensures i <= k && (k - i) % 2 == 0
    ensures k == i || k <= |argv|
    ensures forall j :: i <= j < k && (j - i) % 2 == 0 ==> j < |argv| && TakesOperand(argv, j)
    ensures k < |argv| ==> !TakesOperand(argv, k)
    decreases |argv| - i
  {
    if i < |argv| && TakesOperand(argv, i) then Stop(argv, i + 2) else i
  }

  /** j is the flag of one of the pairs from i up to Stop(argv, i). */
  predicate IsPair(argv: seq<string>, i: nat, j: nat)
  {
    i <= j < Stop(argv, i) && (j - i) % 2 == 0
  }

  /** j is the last pair from i on whose flag satisfies `flag`. */
  predicate IsLastFlag(argv: seq<string>, i: nat, flag: string -> bool, j: nat)
  {
    IsPair(argv, i, j) && flag(argv[j]) && forall m: nat :: j < m < Stop(argv, i) && IsPair(argv, i, m) ==> !flag(argv[m])
  }

  /**
   The value the loop leaves for the setting `flag` selects: the operand of
   the last such flag among the pairs from i on, or `seen` when none of them
   is one.
   */
  function LastOperand(argv: seq<string>, i: nat, flag: string -> bool, seen: Option<string>): (r: Option<string>)
    ensures (forall j: nat :: IsPair(argv, i, j) ==> !flag(argv[j])) ==> r == seen
    ensures forall j: nat :: IsLastFlag(argv, i, flag, j) ==> r == Some(argv[j + 1])
    decreases |argv| - i
  {
    if i < |argv| && TakesOperand(argv, i) then
      var seen' := if flag(argv[i]) then Some(argv[i + 1]) else seen;
      var r := LastOperand(argv, i + 2, flag, seen');
      PairsShift(argv, i);
      forall j: nat | IsLastFlag(argv, i, flag, j)
        ensures r == Some(argv[j + 1])
      {
        if j == i {
          assert forall m: nat :: IsPair(argv, i + 2, m) ==> !flag(argv[m]);
        } else {
          assert IsLastFlag(argv, i + 2, flag, j);
        }
      }
      r
    else seen
  }

  /** The pairs from i are the one at i followed by the pairs from i + 2. */
  lemma PairsShift(argv: seq<string>, i: nat)
    requires i < |argv| && TakesOperand(argv, i)
    ensures Stop(argv, i) == Stop(argv, i + 2)
    ensures IsPair(argv, i, i)
    ensures forall j: nat :: IsPair(argv, i, j) <==> j == i || IsPair(argv, i + 2, j)
  {
    forall j: nat | IsPair(argv, i + 2, j)
      ensures IsPair(argv, i, j)
    {
      assert j - i == (j - (i + 2)) + 2;
    }
    forall j: nat | IsPair(argv, i, j) && j != i
      ensures IsPair(argv, i + 2, j)
    {
      assert j - (i + 2) == (j - i) - 2;
    }
  }

  /**
   The loop from index i with the config path and window id seen so far.
   `-c`/`--config` and `-w`/`--window` take the next argument only when
   there is one (`i+1 < argc`); otherwise they fall through to the command
   branch like any other argument. The argument at Stop(argv, i) decides:
   help and version end the program, anything else starts the command, and
   with none left the terminal runs the plain shell. The later of two config
   or window flags wins.
   */
  function Scan(argv: seq<string>, i: nat, config: Option<string>, xid: Option<string>): (r: Action)
    requires 1 <= i
    ensures r.Launch? ==> |r.cmd| == CMD_SLOTS && r.cmd[CMD_SLOTS - 1] == None
    ensures (r.Launch? && r.cmd == NoCommand) <==> Stop(argv, i) >= |argv|
    ensures Stop(argv, i) < |argv| && IsHelp(argv[Stop(argv, i)]) ==> r == ShowUsage
    ensures Stop(argv, i) < |argv| && IsVersion(argv[Stop(argv, i)]) ==> r == ShowVersion
    ensures Stop(argv, i) < |argv| && !IsHelp(argv[Stop(argv, i)]) && !IsVersion(argv[Stop(argv, i)]) ==>
      r.Launch? && r.cmd == Command(argv, Stop(argv, i))
    ensures r.Launch? ==> r.config == LastOperand(argv, i, IsConfig, config) && r.xid == LastOperand(argv, i, IsWindow, xid)
    decreases |argv| - i
  {
    if i >= |argv| then Launch(config, xid, NoCommand)
    else
      var a := argv[i];
      if IsHelp(a) then ShowUsage
      else if IsVersion(a) then ShowVersion
      else if IsConfig(a) && i + 1 < |argv| then Scan(argv, i + 2, Some(argv[i + 1]), xid)
      else if IsWindow(a) && i + 1 < |argv| then Scan(argv, i + 2, config, Some(argv[i + 1]))
      else
        var r := Launch(config, xid, Command(argv, i));
        assert r.cmd[1] != NoCommand[1];
        r
  }

  /** `main`'s argument handling: with no argument besides the program name nothing is scanned. */
  function Main(argv: seq<string>): (r: Action)
    ensures |argv| <= 1 ==> r == Launch(None, None, NoCommand)
    ensures r.Launch? ==> |r.cmd| == CMD_SLOTS && r.cmd[CMD_SLOTS - 1] == None
  {
    if |argv| > 1 then Scan(argv, 1, None, None) else Launch(None, None, NoCommand)
  }

  /** The argument list a NULL-terminated argv array denotes, read from slot k to the first NULL. */
  function UntilNull(cmd: seq<Option<string>>, k: nat): seq<string>
    decreases |cmd| - k
  {
    if k >= |cmd| || cmd[k].None? then [] else [cmd[k].value] + UntilNull(cmd, k + 1)
  }

  /** The arguments the copy loop moves into `cmd` when the command starts at i. */
  function Copied(argv: seq<string>, i: nat): (r: seq<string>)
    requires 1 <= i
    ensures |r| < COPY_LIMIT
  {
    if i < Min(|argv|, COPY_LIMIT) then argv[i..Min(|argv|, COPY_LIMIT)] else []
  }

  lemma {:induction false} CommandFrom(argv: seq<string>, i: nat, k: nat)
    requires 1 <= i && 2 <= k <= |Copied(argv, i)| + 2
    ensures UntilNull(Command(argv, i), k) == Copied(argv, i)[k - 2..]
    decreases |Copied(argv, i)| + 2 - k
  {
    var cmd := Command(argv, i);
    var c := Copied(argv, i);
    if k == |c| + 2 {
      assert cmd[k] == None;
    } else {
      CommandFrom(argv, i, k + 1);
      assert cmd[k] == Some(c[k - 2]);
      assert c[k - 2..] == [c[k - 2]] + c[k - 1..];
    }
  }

  /**
   The command line the shell receives after its own name: "-c", then the
   arguments from i on, cut before argv index 30. The NULL in slot 31 (or
   earlier) ends it.
   */
  lemma CommandLine(argv: seq<string>, i: nat)
    requires 1 <= i
    ensures UntilNull(Command(argv, i), 1) == ["-c"] + Copied(argv, i)
    ensures i < |argv| && i < COPY_LIMIT ==> Copied(argv, i) == argv[i..Min(|argv|, COPY_LIMIT)]
    ensures i >= COPY_LIMIT ==> UntilNull(Command(argv, i), 1) == ["-c"]
  {
    CommandFrom(argv, i, 2);
    assert Copied(argv, i)[0..] == Copied(argv, i);
  }

  /** A config flag with its operand makes the config seen before it irrelevant: the later occurrence wins. */
  lemma ConfigOverwrites(argv: seq<string>, i: nat, c: Option<string>, c': Option<string>, x: Option<string>)
    requires 1 <= i < |argv| && IsConfig(argv[i]) && TakesOperand(argv, i)
    ensures Scan(argv, i, c, x) == Scan(argv, i, c', x)
  {
  }

  /** The same for the window id. */
  lemma WindowOverwrites(argv: seq<string>, i: nat, w: Option<string>, w': Option<string>, c: Option<string>)
    requires 1 <= i < |argv| && IsWindow(argv[i]) && TakesOperand(argv, i)
    ensures Scan(argv, i, c, w) == Scan(argv, i, c, w')
  {
  }

  /** `fterm -c a -c b`: the second path is the one used. */
  lemma TwoConfigsExample()
    ensures Main(["fterm", "-c", "a", "-c", "b"]) == Launch(Some("b"), None, NoCommand)
  {
    var argv := ["fterm", "-c", "a", "-c", "b"];
    assert Scan(argv, 5, Some("b"), None) == Launch(Some("b"), None, NoCommand);
    assert Scan(argv, 3, Some("a"), None) == Scan(argv, 5, Some("b"), None);
  }

  /** `fterm -c -h`: the operand of a flag is never read as a flag, so `-h` is the config path. */
  lemma OperandIsNotAFlagExample()
    ensures Main(["fterm", "-c", "-h"]) == Launch(Some("-h"), None, NoCommand)
  {
  }

  /** `fterm -c a -h`: help after a config pair still ends the program. */
  lemma HelpAfterFlagsExample()
    ensures Main(["fterm", "-c", "a", "-h"]) == ShowUsage
  {
    var argv := ["fterm", "-c", "a", "-h"];
    assert Stop(argv, 3) == 3;
    assert Stop(argv, 1) == 3;
  }

  /**
   `fterm ls -c`: the first other argument starts the command, so the shell
   is given the arguments `-c ls -c` (it runs `ls`, with `-c` as its `$0`).
   */
  lemma CommandExample()
    ensures Main(["fterm", "ls", "-c"]).Launch?
    ensures UntilNull(Main(["fterm", "ls", "-c"]).cmd, 1) == ["-c", "ls", "-c"]
  {
    var argv := ["fterm", "ls", "-c"];
    assert !IsHelp(argv[1]) && !IsVersion(argv[1]) && !IsConfig(argv[1]) && !IsWindow(argv[1]);
    CommandLine(argv, 1);
    assert argv[1..3] == ["ls", "-c"];
  }

  /** `fterm -w`: a window flag without its operand starts the command, so the shell is given `-c -w`. */
  lemma TrailingFlagExample()
    ensures Main(["fterm", "-w"]).Launch?
    ensures UntilNull(Main(["fterm", "-w"]).cmd, 1) == ["-c", "-w"]
  {
    var argv := ["fterm", "-w"];
    CommandLine(argv, 1);
    assert argv[1..2] == ["-w"];
  }
}

=== FILE: coerce.dfy ===
/**
 Value coercion (`token_to_value` in parser.c): a token read after `=` becomes
 a tagged value according to its first character.
 */
module Coerce {
  import opened Values
  import opened Digits
  import opened Lexer

  /**
   `token_to_value`. A token opening with a quote is a string: the characters
   between the quotes, cut at a NUL as `strndup` does. A token opening with a
   digit is a number: an integer (the `strtol` prefix, trailing text ignored)
   when no `.` appears before its NUL, a real (carried as its raw text)
   otherwise. Anything else is the fatal "unknown value" error. A number that
   fills all STRING_MAX bytes with no NUL among them leaves `strstr` and
   `strtol` without a terminator; the model reports that as NumberFillsBuffer.
   */
  function TokenToValue(tok: string): (r: Result<Value>)
    requires IsToken(tok)
    ensures r.Ok? <==> tok[0] == '"' || (IsDigit(tok[0]) && |CStr(tok)| < STRING_MAX)
    ensures r.Err? ==> r.error == (if IsDigit(tok[0]) then NumberFillsBuffer else UnknownValue(CStr(tok)))
    ensures r.Ok? ==> TagOf(r.value) != TNil
    ensures r.Ok? ==> (r.value.Str? <==> tok[0] == '"')
    ensures r.Ok? && r.value.Str? ==> r.value.s <= tok[1..|tok| - 1] && '\0' !in r.value.s
    ensures r.Ok? && r.value.Str? && |r.value.s| < |tok| - 2 ==> tok[|r.value.s| + 1] == '\0'
    ensures r.Ok? ==> (r.value.Int? <==> IsDigit(tok[0]) && '.' !in CStr(tok))
    ensures r.Ok? && r.value.Int? ==> r.value.n == Min(ValueOf(LeadingDigits(tok)), LONG_MAX)
    ensures r.Ok? && r.value.Real? ==> r.value.text == tok
  {
    if tok[0] == '"' then Ok(Str(CStr(tok[1..|tok| - 1])))
    else if IsDigit(tok[0]) then
      if |CStr(tok)| == STRING_MAX then Err(NumberFillsBuffer)
      else if '.' !in CStr(tok) then Ok(Int(Strtol(tok))) else Ok(Real(tok))
    else Err(UnknownValue(CStr(tok)))
  }

  /** The quoted token for a text. */
  function Quote(w: string): string
  {
    "\"" + w + "\""
  }

  /** Quoting a text without quotes and NULs and coercing the token gives the text back. */
  lemma QuoteRoundTrip(w: string)
    requires '"' !in w && '\0' !in w
    requires |w| + 2 <= STRING_MAX
    ensures IsToken(Quote(w))
    ensures TokenToValue(Quote(w)) == Ok(Str(w))
  {
    var t := Quote(w);
    assert t[1..|t| - 1] == w;
    forall k | 0 < k < |t| - 1
      ensures t[k] != '"'
    {
      assert t[k] == w[k - 1];
    }
    CStrOfPlain(w);
  }

  function Pow10(k: nat): nat
  {
    if k == 0 then 1 else 10 * Pow10(k - 1)
  }

  /** A number below 10^k has at most k digits. */
  lemma {:induction false} DecimalLength(n: nat, k: nat)
    requires k >= 1 && n < Pow10(k)
    ensures |Decimal(n)| <= k
  {
    if n >= 10 {
      assert Pow10(1) == 10;
      DecimalLength(n / 10, k - 1);
    }
  }

  lemma LongFitsNineteenDigits()
    ensures LONG_MAX < Pow10(19)
  {
    assert Pow10(1) == 10;
    assert Pow10(2) == 100;
    assert Pow10(4) == 10_000 by { assert Pow10(3) == 1000; }
    assert Pow10(6) == 1_000_000 by { assert Pow10(5) == 100_000; }
    assert Pow10(8) == 100_000_000 by { assert Pow10(7) == 10_000_000; }
    assert Pow10(10) == 10_000_000_000 by { assert Pow10(9) == 1_000_000_000; }
    assert Pow10(12) == 1_000_000_000_000 by { assert Pow10(11) == 100_000_000_000; }
    assert Pow10(14) == 100_000_000_000_000 by { assert Pow10(13) == 10_000_000_000_000; }
    assert Pow10(16) == 10_000_000_000_000_000 by { assert Pow10(15) == 1_000_000_000_000_000; }
    assert Pow10(18) == 1_000_000_000_000_000_000 by { assert Pow10(17) == 100_000_000_000_000_000; }
    assert Pow10(19) == 10_000_000_000_000_000_000;
  }

  /** Rendering a `long` value in decimal and coercing it gives the same integer. */
  lemma IntRoundTrip(n: nat)
    requires n <= LONG_MAX
    ensures IsToken(Decimal(n))
    ensures TokenToValue(Decimal(n)) == Ok(Int(n))
  {
    var d := Decimal(n);
    LongFitsNineteenDigits();
    DecimalLength(n, 19);
    DigitsToken(d);
    LeadingDigitsOf(d, []);
    assert d + [] == d;
    ValueOfDecimal(n);
  }

  /** A digit run that fits the buffer is an atom token with nothing cut and no `.`. */
  lemma DigitsToken(d: string)
    requires AllDigits(d) && 1 <= |d| <= STRING_MAX
    ensures IsToken(d) && CStr(d) == d && '.' !in d && IsDigit(d[0])
  {
    DigitsPlain(d);
    CStrOfPlain(d);
  }

  /** A digit is neither a token stop, nor `.`, nor NUL. */
  lemma DigitsPlain(d: string)
    requires AllDigits(d)
    ensures forall k :: 0 <= k < |d| ==> !IsAtomStop(d[k]) && d[k] != '.' && d[k] != '\0'
  {
    forall k | 0 <= k < |d|
      ensures !IsAtomStop(d[k]) && d[k] != '.' && d[k] != '\0'
    {
      assert IsDigit(d[k]);
    }
  }

  /**
   Text after the digits is ignored, as `strtol` ignores it: a rendered
   number followed by a non-digit tail without `.` is that number, unless
   the token fills the buffer without a NUL.
   */
  lemma TrailingTextIgnored(n: nat, tail: string)
    requires n <= LONG_MAX
    requires |tail| > 0 && !IsDigit(tail[0]) && '.' !in tail
    requires IsToken(Decimal(n) + tail)
    ensures TokenToValue(Decimal(n) + tail)
      == if |CStr(Decimal(n) + tail)| == STRING_MAX then Err(NumberFillsBuffer) else Ok(Int(n))
  {
    var d := Decimal(n);
    var t := d + tail;
    assert t[0] == d[0];
    NoDotAfter(d, tail);
    LeadingDigitsOf(d, tail);
    ValueOfDecimal(n);
  }

  /** Digits followed by text without `.` have no `.` before their NUL. */
  lemma NoDotAfter(d: string, tail: string)
    requires AllDigits(d) && '.' !in tail
    ensures '.' !in CStr(d + tail)
  {
    var t := d + tail;
    forall k | 0 <= k < |CStr(t)|
      ensures CStr(t)[k] != '.'
    {
      assert CStr(t)[k] == t[k];
      if k < |d| {
        assert IsDigit(d[k]);
      } else {
        assert t[k] == tail[k - |d|];
      }
    }
  }

  /**
   A number written with more digits than a `long` holds saturates at
   LONG_MAX, unless it fills the buffer without a NUL.
   */
  lemma Saturates(tok: string)
    requires IsToken(tok) && IsDigit(tok[0]) && '.' !in CStr(tok)
    requires ValueOf(LeadingDigits(tok)) > LONG_MAX
    ensures TokenToValue(tok) == if |CStr(tok)| == STRING_MAX then Err(NumberFillsBuffer) else Ok(Int(LONG_MAX))
  {
  }

  /** A run of digits that fills every byte of the buffer is a number with no terminator. */
  lemma FullNumber(d: string)
    requires AllDigits(d) && |d| == STRING_MAX
    ensures IsToken(d)
    ensures TokenToValue(d) == Err(NumberFillsBuffer)
  {
    DigitsToken(d);
  }

  /** `42xyz` reads as the integer 42: the tail is ignored, not rejected. */
  lemma TrailingTextExample()
    ensures TokenToValue("42xyz") == Ok(Int(42))
  {
    assert Decimal(42) == "42";
    TrailingTextIgnored(42, "xyz");
    assert "42" + "xyz" == "42xyz";
  }

  /** A digit-leading token with a `.` anywhere is a real, even when it is not a well-formed number. */
  lemma RealExample()
    ensures TokenToValue("1.2.3") == Ok(Real("1.2.3"))
  {
    var t := "1.2.3";
    assert CStr(t) == t by {
      CStrOfPlain(t);
    }
    assert t[1] == '.';
  }

  /** No sign is accepted: `-1` is an unknown value. */
  lemma SignExample()
    ensures TokenToValue("-1") == Err(UnknownValue("-1"))
  {
  }
}

=== FILE: digits.dfy ===
/**
 Decimal digits: `isdigit`, the prefix `strtol(tok, NULL, 10)` reads, and the
 decimal rendering `sprintf("%d")` produces for the colour keys.
 */
module Digits {
  import opened Values

  predicate IsDigit(c: char)
  {
    '0' <= c <= '9'
  }

  predicate AllDigits(s: string)
  {
    forall k :: 0 <= k < |s| ==> IsDigit(s[k])
  }

  function DigitValue(c: char): (d: nat)
    requires IsDigit(c)
    ensures d < 10
  {
    c as int - '0' as int
  }

  function DigitChar(d: nat): (c: char)
    requires d < 10
    ensures IsDigit(c) && DigitValue(c) == d
  {
    ('0' as int + d) as char
  }

  /** The number a run of decimal digits denotes, most significant first. */
  function ValueOf(ds: string): nat
    requires AllDigits(ds)
  {
    if |ds| == 0 then 0 else 10 * ValueOf(ds[..|ds| - 1]) + DigitValue(ds[|ds| - 1])
  }

  /** `sprintf("%d", n)` for a non-negative n. */
  function Decimal(n: nat): (r: string)
    ensures |r| >= 1 && AllDigits(r)
    ensures n < 10 ==> r == [DigitChar(n)]
    ensures r[0] == '0' <==> n == 0
  {
    if n < 10 then [DigitChar(n)] else Decimal(n / 10) + [DigitChar(n % 10)]
  }

  /** The longest prefix of s made of digits: what `strtol` consumes after a leading digit. */
  function LeadingDigits(s: string): (r: string)
    ensures r <= s && AllDigits(r)
    ensures |r| < |s| ==> !IsDigit(s[|r|])
  {
    if |s| == 0 || !IsDigit(s[0]) then [] else [s[0]] + LeadingDigits(s[1..])
  }

  /**
   `strtol(s, NULL, 10)` on a string that starts with a digit: the value of the
   leading digit run, clamped to LONG_MAX on overflow as `strtol` does.
   */
  function Strtol(s: string): (r: int)
    requires |s| > 0 && IsDigit(s[0])
    ensures 0 <= r <= LONG_MAX
    ensures ValueOf(LeadingDigits(s)) <= LONG_MAX ==> r == ValueOf(LeadingDigits(s))
    ensures ValueOf(LeadingDigits(s)) > LONG_MAX ==> r == LONG_MAX
  {
    var v := ValueOf(LeadingDigits(s));
    if v > LONG_MAX then LONG_MAX else v
  }

  /** Reading back a rendered number gives the number. */
  lemma {:induction false} ValueOfDecimal(n: nat)
    ensures ValueOf(Decimal(n)) == n
  {
    if n >= 10 {
      ValueOfDecimal(n / 10);
      var r := Decimal(n);
      assert r[..|r| - 1] == Decimal(n / 10);
    }
  }

  /** `%d` is the only rendering without a leading zero: any such digit string denoting n is Decimal(n). */
  lemma {:induction false} DecimalUnique(d: string)
    requires |d| >= 1 && AllDigits(d)
    requires d[0] == '0' ==> |d| == 1
    ensures d == Decimal(ValueOf(d))
  {
    var n := ValueOf(d);
    if |d| == 1 {
      assert d == [d[0]];
      assert DigitChar(DigitValue(d[0])) == d[0];
    } else {
      var front := d[..|d| - 1];
      assert front[0] == d[0];
      DecimalUnique(front);
      var m := ValueOf(front);
      assert m != 0;
      assert n / 10 == m && n % 10 == DigitValue(d[|d| - 1]);
      assert DigitChar(DigitValue(d[|d| - 1])) == d[|d| - 1];
      assert d == front + [d[|d| - 1]];
    }
  }

  /** Distinct numbers render differently. */
  lemma DecimalInjective(m: nat, n: nat)
    requires Decimal(m) == Decimal(n)
    ensures m == n
  {
    ValueOfDecimal(m);
    ValueOfDecimal(n);
  }

  /** The digit prefix of a digit run followed by a non-digit is that run. */
  lemma {:induction false} LeadingDigitsOf(ds: string, rest: string)
    requires AllDigits(ds)
    requires |rest| == 0 || !IsDigit(rest[0])
    ensures LeadingDigits(ds + rest) == ds
  {
    if |ds| > 0 {
      assert (ds + rest)[1..] == ds[1..] + rest;
      LeadingDigitsOf(ds[1..], rest);
    } else {
      assert ds + rest == rest;
    }
  }
}

=== FILE: lexer.dfy ===
/**
 The tokenizer of parser.c (`skip_space`, `next_token`) as pure functions over
 the whole input and a read position. The position plays the part of the
 FILE cursor; end of input plays the part of EOF, and `ungetc` is simply not
 advancing past the terminator.
 */
module Lexer {
  import opened Values

  /** `isspace` in the C locale. */
  predicate IsSpace(c: char)
    ensures IsSpace(c) <==> c == ' ' || '\t' <= c <= '\r'
  {
    c == ' ' || c == '\t' || c == '\n' || c == '\U{B}' || c == '\U{C}' || c == '\r'
  }

  predicate IsNewline(c: char)
  {
    c == '\n'
  }

  predicate IsQuote(c: char)
  {
    c == '"'
  }

  /** What ends a bare atom: whitespace, or a `#` that opens a comment. */
  predicate IsAtomStop(c: char)
  {
    IsSpace(c) || c == '#'
  }

  /** The first position at or after p whose character satisfies stop, or |s|. */
  function Seek(s: string, p: nat, stop: char -> bool): (e: nat)
    requires p <= |s|
    ensures p <= e <= |s|
    ensures e < |s| ==> stop(s[e])
    ensures forall k :: p <= k < e ==> !stop(s[k])
    decreases |s| - p
  {
    if p == |s| || stop(s[p]) then p else Seek(s, p + 1, stop)
  }

  /** Position k (at or after p) lies in a `#` comment opened at or after p and not yet closed by a newline. */
  ghost predicate InComment(s: string, p: nat, k: nat)
    requires p <= k < |s|
  {
    exists j :: p <= j <= k && s[j] == '#' && forall m :: j <= m <= k ==> s[m] != '\n'
  }

  /** What `skip_space` passes over: whitespace and comment text. */
  ghost predicate Skippable(s: string, p: nat, k: nat)
    requires p <= k < |s|
  {
    IsSpace(s[k]) || InComment(s, p, k)
  }

  /**
   `skip_space`: the position of the first character at or after p that is
   neither whitespace nor part of a comment. A comment runs from `#` up to, not
   including, the next newline (pushed back and then skipped as whitespace).
   */
  function SkipSpace(s: string, p: nat): (q: nat)
    requires p <= |s|
    ensures p <= q <= |s|
    ensures forall k :: p <= k < q ==> Skippable(s, p, k)
    ensures q < |s| ==> !Skippable(s, p, q)
    decreases |s| - p
  {
    if p == |s| then p
    else if IsSpace(s[p]) then
      var q := SkipSpace(s, p + 1);
      SkipWidens(s, p, p + 1, q);
      q
    else if s[p] == '#' then
      var e := Seek(s, p + 1, IsNewline);
      var q := SkipSpace(s, e);
      CommentSkippable(s, p, e);
      SkipWidens(s, p, e, q);
      q
    else
      assert !InComment(s, p, p);
      p
  }

  /** Widening the start from p' down to p keeps the skip characterisation, given s[p..p'] is skipped and closed. */
  lemma SkipWidens(s: string, p: nat, p': nat, q: nat)
    requires p < p' <= q <= |s|
    requires forall k :: p <= k < p' ==> Skippable(s, p, k)
    requires (forall j :: p <= j < p' ==> s[j] != '#') || p' == |s| || s[p'] == '\n'
    requires forall k :: p' <= k < q ==> Skippable(s, p', k)
    requires q < |s| ==> !Skippable(s, p', q)
    ensures forall k :: p <= k < q ==> Skippable(s, p, k)
    ensures q < |s| ==> !Skippable(s, p, q)
  {
    forall k | p' <= k < q
      ensures Skippable(s, p, k)
    {
      assert Skippable(s, p', k);
      if !IsSpace(s[k]) {
        assert InComment(s, p', k);
        var j :| p' <= j <= k && s[j] == '#' && forall m :: j <= m <= k ==> s[m] != '\n';
        assert p <= j;
      }
    }
    if q < |s| {
      forall j | p <= j <= q && s[j] == '#'
        ensures exists m :: j <= m <= q && s[m] == '\n'
      {
        if j < p' {
          assert s[p'] == '\n';
        } else {
          assert !InComment(s, p', q);
        }
      }
    }
  }

  /** The span of a comment, from its `#` up to its closing newline, is skipped. */
  lemma CommentSkippable(s: string, p: nat, e: nat)
    requires p < e <= |s| && s[p] == '#'
    requires forall k :: p + 1 <= k < e ==> s[k] != '\n'
    ensures forall k :: p <= k < e ==> Skippable(s, p, k)
  {
    forall k | p <= k < e
      ensures Skippable(s, p, k)
    {
      assert forall m :: p <= m <= k ==> s[m] != '\n';
    }
  }

  /** A quoted token: both quotes kept, no quote in between, nothing escaped. */
  predicate IsQuoted(t: string)
  {
    |t| >= 2 && t[0] == '"' && t[|t| - 1] == '"' && forall k :: 0 < k < |t| - 1 ==> t[k] != '"'
  }

  /** A bare atom: non-empty, not opening with a quote, free of whitespace and `#`. */
  predicate IsAtom(t: string)
  {
    |t| >= 1 && t[0] != '"' && forall k :: 0 <= k < |t| ==> !IsAtomStop(t[k])
  }

  /** The shapes `next_token` can return (besides the empty end-of-input token), within the buffer. */
  predicate IsToken(t: string)
  {
    (IsQuoted(t) || IsAtom(t)) && |t| <= STRING_MAX
  }

  /** The quote at q is never closed. */
  predicate Unterminated(s: string, q: nat)
  {
    q < |s| && s[q] == '"' && forall k :: q < k < |s| ==> s[k] != '"'
  }

  /** A token together with the read position just after it. */
  datatype Lexeme = Lexeme(token: string, next: nat)

  /**
   `next_token`: skip blanks and comments, then read a quoted token (up to and
   including the closing quote) or a bare atom (up to, not including, the
   first whitespace or `#`, which stays unread). At end of input the token is
   empty. Two undefined behaviours of the C code become errors here: a quote
   never closed (the C loop reads past EOF forever) and a token of more than
   STRING_MAX characters (the 257th push writes past the buffer). A bare atom
   that reaches end of input simply ends there; NextTokenAsWritten below is
   the loop as the C code has it.
   */
  function NextToken(s: string, p: nat): (r: Result<Lexeme>)
    requires p <= |s|
    ensures r.Ok? ==> SkipSpace(s, p) <= r.value.next <= |s|
    ensures r.Ok? ==> r.value.token == s[SkipSpace(s, p)..r.value.next]
    ensures r.Ok? ==> (r.value.token == [] <==> SkipSpace(s, p) == |s|)
    ensures r.Ok? && r.value.token != [] ==> IsToken(r.value.token)
    ensures r.Ok? && IsAtom(r.value.token) ==> r.value.next == |s| || IsAtomStop(s[r.value.next])
    ensures r == Err(UnterminatedString) <==> Unterminated(s, SkipSpace(s, p))
    ensures r.Err? ==> r.error == UnterminatedString || r.error == TokenTooLong
  {
    var q := SkipSpace(s, p);
    if q == |s| then Ok(Lexeme([], q))
    else
      assert !IsAtomStop(s[q]);
      if s[q] == '"' then
        var e := Seek(s, q + 1, IsQuote);
        if e == |s| then Err(UnterminatedString)
        else if e + 1 - q > STRING_MAX then Err(TokenTooLong)
        else Ok(Lexeme(s[q..e + 1], e + 1))
      else
        var e := Seek(s, q, IsAtomStop);
        if e - q > STRING_MAX then Err(TokenTooLong)
        else Ok(Lexeme(s[q..e], e))
  }

  /**
   The converse of NextToken's contract: a well-formed token that starts where
   the blanks end, and (for an atom) is not followed by more atom text, is
   exactly what NextToken returns.
   */
  lemma TokenAt(s: string, p: nat, e: nat)
    requires p <= |s|
    requires SkipSpace(s, p) < e <= |s|
    requires IsToken(s[SkipSpace(s, p)..e])
    requires IsAtom(s[SkipSpace(s, p)..e]) ==> e == |s| || IsAtomStop(s[e])
    ensures NextToken(s, p) == Ok(Lexeme(s[SkipSpace(s, p)..e], e))
  {
    var q := SkipSpace(s, p);
    if IsQuoted(s[q..e]) {
      QuotedEnd(s, q, e);
    } else {
      AtomEnd(s, q, e);
    }
  }

  /** A quoted token at q closes at its last character: the quote search from q+1 stops at e-1. */
  lemma QuotedEnd(s: string, q: nat, e: nat)
    requires q < e <= |s| && IsQuoted(s[q..e])
    ensures s[q] == '"' && Seek(s, q + 1, IsQuote) == e - 1
  {
    var t := s[q..e];
    assert t[0] == s[q];
    assert s[e - 1] == t[|t| - 1];
    forall k | q + 1 <= k < e - 1
      ensures !IsQuote(s[k])
    {
      assert s[k] == t[k - q];
    }
  }

  /** An atom at q that is followed by a stop character or the end runs to e. */
  lemma AtomEnd(s: string, q: nat, e: nat)
    requires q < e <= |s| && IsAtom(s[q..e]) && (e == |s| || IsAtomStop(s[e]))
    ensures s[q] != '"' && Seek(s, q, IsAtomStop) == e
  {
    var t := s[q..e];
    assert t[0] == s[q];
    forall k | q <= k < e
      ensures !IsAtomStop(s[k])
    {
      assert s[k] == t[k - q];
    }
  }

  /** What `fgetc` hands the loops at position k: the character there, or EOF past the end. */
  datatype Input = Char(c: char) | Eof

  function ReadAt(s: string, k: nat): Input
  {
    if k < |s| then Char(s[k]) else Eof
  }

  /** The atom loop's exit test `isspace(c) || c == '#'`: EOF passes neither. */
  predicate StopsAtom(c: Input)
  {
    c.Char? && IsAtomStop(c.c)
  }

  /** The quote loop's exit test `c == '"'`: EOF is not a quote. */
  predicate ClosesQuote(c: Input)
  {
    c.Char? && IsQuote(c.c)
  }

  /**
   The atom loop of `next_token` as written, from the token start q with n
   characters pushed: the character read next either stops the atom (it is
   pushed back and the token is s[q..q+n]) or is pushed, and a push when all
   STRING_MAX bytes are used writes past the buffer. EOF is pushed like any
   other character.
   */
  function AtomLoop(s: string, q: nat, n: nat): (r: Result<Lexeme>)
    requires q <= |s| && n <= STRING_MAX
    ensures r.Ok? ==> r.value.next < |s| && IsAtomStop(s[r.value.next])
    ensures r.Ok? ==> q + n <= r.value.next && r.value.token == s[q..r.value.next]
    ensures r.Err? ==> r.error == TokenTooLong
    decreases STRING_MAX - n
  {
    if StopsAtom(ReadAt(s, q + n)) then Ok(Lexeme(s[q..q + n], q + n))
    else if n == STRING_MAX then Err(TokenTooLong)
    else AtomLoop(s, q, n + 1)
  }

  /**
   The quote loop `do { push(c); c = fgetc(); } while (c != '"'); push(c);`
   after its first push, with n characters pushed: the character read next
   is pushed whether or not it closes the quote, so a push when all
   STRING_MAX bytes are used writes past the buffer.
   */
  function QuoteLoop(s: string, q: nat, n: nat): (r: Result<Lexeme>)
    requires q < |s| && 1 <= n <= STRING_MAX
    ensures r.Ok? ==> q + n < r.value.next <= |s| && IsQuote(s[r.value.next - 1])
    ensures r.Ok? ==> r.value.token == s[q..r.value.next]
    ensures r.Err? ==> r.error == TokenTooLong
    decreases STRING_MAX - n
  {
    if n == STRING_MAX then Err(TokenTooLong)
    else if ClosesQuote(ReadAt(s, q + n)) then Ok(Lexeme(s[q..q + n + 1], q + n + 1))
    else QuoteLoop(s, q, n + 1)
  }

  /** Past the end of input the atom loop reads only EOF and runs out of buffer. */
  lemma {:induction false} AtomLoopPastEnd(s: string, q: nat, n: nat)
    requires q <= |s| && n <= STRING_MAX && |s| <= q + n
    ensures AtomLoop(s, q, n) == Err(TokenTooLong)
    decreases STRING_MAX - n
  {
    if n < STRING_MAX {
      AtomLoopPastEnd(s, q, n + 1);
    }
  }

  /**
   The atom loop reads up to the first stop character e: it returns s[q..e]
   when there is one and the atom fits the buffer, and otherwise overruns.
   */
  lemma {:induction false} AtomLoopResult(s: string, q: nat, n: nat)
    requires q <= |s| && n <= STRING_MAX && q + n <= Seek(s, q, IsAtomStop)
    ensures var e := Seek(s, q, IsAtomStop);
      AtomLoop(s, q, n) == if e < |s| && e - q <= STRING_MAX then Ok(Lexeme(s[q..e], e)) else Err(TokenTooLong)
    decreases STRING_MAX - n
  {
    var e := Seek(s, q, IsAtomStop);
    if q + n == e {
      if e == |s| {
        AtomLoopPastEnd(s, q, n);
      }
    } else if n < STRING_MAX {
      AtomLoopResult(s, q, n + 1);
    }
  }

  /** Past the end of input the quote loop reads only EOF and runs out of buffer. */
  lemma {:induction false} QuoteLoopPastEnd(s: string, q: nat, n: nat)
    requires q < |s| && 1 <= n <= STRING_MAX && |s| <= q + n
    ensures QuoteLoop(s, q, n) == Err(TokenTooLong)
    decreases STRING_MAX - n
  {
    if n < STRING_MAX {
      QuoteLoopPastEnd(s, q, n + 1);
    }
  }

  /**
   The quote loop reads up to the closing quote at e: it returns s[q..e+1]
   when there is one and the token fits the buffer, and otherwise overruns.
   */
  lemma {:induction false} QuoteLoopResult(s: string, q: nat, n: nat)
    requires q < |s| && 1 <= n <= STRING_MAX && q + n <= Seek(s, q + 1, IsQuote)
    ensures var e := Seek(s, q + 1, IsQuote);
      QuoteLoop(s, q, n) == if e < |s| && e + 1 - q <= STRING_MAX then Ok(Lexeme(s[q..e + 1], e + 1)) else Err(TokenTooLong)
    decreases STRING_MAX - n
  {
    var e := Seek(s, q + 1, IsQuote);
    if n < STRING_MAX {
      if q + n == e {
        if e == |s| {
          QuoteLoopPastEnd(s, q, n);
        }
      } else {
        QuoteLoopResult(s, q, n + 1);
      }
    }
  }

  /** A bare atom at q that runs to the end of input, with no whitespace or `#` after it. */
  predicate AtomToEnd(s: string, q: nat)
    requires q <= |s|
  {
    q < |s| && s[q] != '"' && Seek(s, q, IsAtomStop) == |s|
  }

  /**
   `next_token` exactly as written: after `skip_space`, EOF gives the empty
   token, a quote starts the quote loop and anything else the atom loop.
   AsWritten below compares it with NextToken.
   */
  function NextTokenAsWritten(s: string, p: nat): (r: Result<Lexeme>)
    requires p <= |s|
    ensures r.Ok? ==> SkipSpace(s, p) <= r.value.next <= |s| && r.value.token == s[SkipSpace(s, p)..r.value.next]
    ensures r.Ok? && r.value.token != [] ==> r.value.next < |s| || IsQuote(s[r.value.next - 1])
    ensures r.Err? ==> r.error == TokenTooLong
  {
    var q := SkipSpace(s, p);
    if q == |s| then Ok(Lexeme([], q))
    else if s[q] == '"' then QuoteLoop(s, q, 1)
    else AtomLoop(s, q, 0)
  }

  /** The quote branch of both readings: they agree unless the quote is never closed. */
  lemma AsWrittenQuote(s: string, p: nat)
    requires p <= |s| && SkipSpace(s, p) < |s| && s[SkipSpace(s, p)] == '"'
    ensures NextTokenAsWritten(s, p) == if Unterminated(s, SkipSpace(s, p)) then Err(TokenTooLong) else NextToken(s, p)
  {
    var q := SkipSpace(s, p);
    QuoteLoopResult(s, q, 1);
    var e := Seek(s, q + 1, IsQuote);
    if e < |s| {
      assert !Unterminated(s, q);
    }
  }

  /** The atom branch of both readings: they agree unless the atom runs to the end of input. */
  lemma AsWrittenAtom(s: string, p: nat)
    requires p <= |s| && SkipSpace(s, p) < |s| && s[SkipSpace(s, p)] != '"'
    ensures NextTokenAsWritten(s, p) == if AtomToEnd(s, SkipSpace(s, p)) then Err(TokenTooLong) else NextToken(s, p)
  {
    AtomLoopResult(s, SkipSpace(s, p), 0);
  }

  /**
   The loop as written fails where NextToken ends a bare atom at the end of
   input or reports a quote never closed: neither loop can see EOF, so both
   run out of buffer. Everywhere else the two readings are the same.
   */
  lemma AsWritten(s: string, p: nat)
    requires p <= |s|
    ensures NextTokenAsWritten(s, p) ==
      if AtomToEnd(s, SkipSpace(s, p)) || Unterminated(s, SkipSpace(s, p)) then Err(TokenTooLong) else NextToken(s, p)
  {
    var q := SkipSpace(s, p);
    if q < |s| && s[q] == '"' {
      AsWrittenQuote(s, p);
    } else if q < |s| {
      AsWrittenAtom(s, p);
    }
  }

  /** The two readings differ exactly where NextToken succeeds on an atom that reaches the end, or reports an unclosed quote. */
  lemma AsWrittenDiffers(s: string, p: nat)
    requires p <= |s|
    ensures NextTokenAsWritten(s, p) != NextToken(s, p) <==>
      var q := SkipSpace(s, p);
      (AtomToEnd(s, q) && |s| - q <= STRING_MAX) || Unterminated(s, q)
  {
    AsWritten(s, p);
  }

  /** `width = 900` with no newline after the last token: the C loop overruns, the corrected one reads `900`. */
  lemma AtomAtEndExample(s: string)
    requires s == "width = 900"
    ensures NextTokenAsWritten(s, 7) == Err(TokenTooLong)
    ensures NextToken(s, 7) == Ok(Lexeme("900", 11))
  {
    assert SkipSpace(s, 7) == 8;
    assert s[8..11] == "900";
    AtomEnd(s, 8, 11);
    AsWritten(s, 7);
  }

  /** All tokens from p to the end of input, as repeated calls of `next_token` would return them. */
  function Tokens(s: string, p: nat): (r: Result<seq<string>>)
    requires p <= |s|
    ensures r.Ok? ==> forall k :: 0 <= k < |r.value| ==> IsToken(r.value[k])
    decreases |s| - p
  {
    var lx :- NextToken(s, p);
    if lx.token == [] then Ok([])
    else
      var rest :- Tokens(s, lx.next);
      Ok([lx.token] + rest)
  }

  /** Tokens written out, token k followed by the whitespace character seps[k]. */
  function Render(toks: seq<string>, seps: string): string
    requires |seps| == |toks|
  {
    if |toks| == 0 then [] else toks[0] + [seps[0]] + Render(toks[1..], seps[1..])
  }

  predicate Blanks(seps: string)
  {
    forall k :: 0 <= k < |seps| ==> IsSpace(seps[k])
  }

  /** Rendering well-formed tokens and reading them back gives the same tokens. */
  lemma {:induction false} RenderTokens(s: string, p: nat, toks: seq<string>, seps: string)
    requires p <= |s| && |seps| == |toks| && Blanks(seps) && s[p..] == Render(toks, seps)
    requires forall k :: 0 <= k < |toks| ==> IsToken(toks[k])
    ensures Tokens(s, p) == Ok(toks)
    decreases |toks|
  {
    if |toks| == 0 {
      assert p == |s|;
    } else {
      var t := toks[0];
      var q := p + |t| + 1;
      RenderStep(s, p, t, seps[0], Render(toks[1..], seps[1..]), q);
      RenderTokens(s, q, toks[1..], seps[1..]);
      assert toks == [t] + toks[1..];
    }
  }

  /** A well-formed token followed by a blank is the head of the token stream, which goes on at q. */
  lemma RenderStep(s: string, p: nat, t: string, sep: char, rest: string, q: nat)
    requires p <= |s| && s[p..] == t + [sep] + rest && IsToken(t) && IsSpace(sep)
    requires q == p + |t| + 1
    ensures q <= |s| && s[q..] == rest
    ensures Tokens(s, p).Ok? == Tokens(s, q).Ok?
    ensures Tokens(s, p).Ok? ==> Tokens(s, p).value == [t] + Tokens(s, q).value
  {
    var e := p + |t|;
    SplitSuffix(s, p, t, [sep] + rest);
    SplitSuffix(s, e, [sep], rest);
    assert s[q..] == rest;
    assert s[p] == t[0];
    assert SkipSpace(s, p) == p;
    assert s[p..e] == t;
    TokensStep(s, p, e);
    TokensSkipSpace(s, e, q);
    assert [s[SkipSpace(s, p)..e]] == [t];
  }

  /** Whitespace before a token does not change the tokens read. */
  lemma TokensSkipSpace(s: string, e: nat, q: nat)
    requires e < |s| && IsSpace(s[e]) && q == e + 1
    ensures Tokens(s, e) == Tokens(s, q)
  {
    assert SkipSpace(s, e) == SkipSpace(s, q);
    assert NextToken(s, e) == NextToken(s, q);
  }

  lemma SplitSuffix(s: string, p: nat, a: string, b: string)
    requires p <= |s| && s[p..] == a + b
    ensures p + |a| <= |s| && s[p..p + |a|] == a && s[p + |a|..] == b
  {
    assert s[p..][..|a|] == a;
    assert s[p..][|a|..] == b;
  }

  /** The same, for a whole input. */
  lemma TokensOfRender(toks: seq<string>, seps: string)
    requires |seps| == |toks| && Blanks(seps)
    requires forall k :: 0 <= k < |toks| ==> IsToken(toks[k])
    ensures Tokens(Render(toks, seps), 0) == Ok(toks)
  {
    RenderTokens(Render(toks, seps), 0, toks, seps);
  }

  /** A comment line, from its `#` through its newline, changes no token read after it. */
  lemma CommentLine(s: string, p: nat, n: nat)
    requires p < n <= |s| && s[p] == '#' && s[n - 1] == '\n'
    requires forall k :: p < k < n - 1 ==> s[k] != '\n'
    ensures Tokens(s, p) == Tokens(s, n)
  {
    SkipCommentLine(s, p, n);
    SameStart(s, p, n);
  }

  /** `skip_space` at a comment line goes on where it would after the line. */
  lemma SkipCommentLine(s: string, p: nat, n: nat)
    requires p < n <= |s| && s[p] == '#' && s[n - 1] == '\n'
    requires forall k :: p < k < n - 1 ==> s[k] != '\n'
    ensures SkipSpace(s, p) == SkipSpace(s, n)
  {
    assert Seek(s, p + 1, IsNewline) == n - 1;
    assert SkipSpace(s, n - 1) == SkipSpace(s, n);
  }

  /** Two positions whose blanks end at the same place read the same tokens. */
  lemma SameStart(s: string, p: nat, n: nat)
    requires p <= |s| && n <= |s| && SkipSpace(s, p) == SkipSpace(s, n)
    ensures Tokens(s, p) == Tokens(s, n)
  {
    SameToken(s, p, n);
    SameTokens(s, p, n);
  }

  lemma SameToken(s: string, p: nat, n: nat)
    requires p <= |s| && n <= |s| && SkipSpace(s, p) == SkipSpace(s, n)
    ensures NextToken(s, p) == NextToken(s, n)
  {
  }

  /** The token stream from a position is fixed by the first token read there. */
  lemma SameTokens(s: string, p: nat, n: nat)
    requires p <= |s| && n <= |s| && NextToken(s, p) == NextToken(s, n)
    ensures Tokens(s, p) == Tokens(s, n)
  {
  }

  /** One step of the token stream: a token found where the blanks end is its head. */
  lemma TokensStep(s: string, p: nat, e: nat)
    requires p <= |s|
    requires SkipSpace(s, p) < e <= |s|
    requires IsToken(s[SkipSpace(s, p)..e])
    requires IsAtom(s[SkipSpace(s, p)..e]) ==> e == |s| || IsAtomStop(s[e])
    ensures Tokens(s, p).Ok? == Tokens(s, e).Ok?
    ensures Tokens(s, p).Ok? ==> Tokens(s, p).value == [s[SkipSpace(s, p)..e]] + Tokens(s, e).value
  {
    TokenAt(s, p, e);
  }
}

=== FILE: parser.dfy ===
/**
 The parse loop of `init_config` (parser.c), reading an in-memory input in
 place of the opened file. Every `exit(1)` of the loop and of the functions it
 calls becomes an error result; the first error met in reading order wins, as
 the first `exit` would.
 */
module Parser {
  import opened Values
  import opened Lexer
  import opened Coerce
  import opened Store
  import opened Digits

  /**
   The `=` test `strncmp(tok.ptr, "=", tok.sz) == 0`: it compares at most the
   token's length and stops at a NUL, so it accepts `=` and any token that
   continues `=` with a NUL.
   */
  predicate IsAssign(tok: string)
    ensures IsAssign(tok) <==> tok != [] && CStr(tok) == "="
  {
    |tok| >= 1 && tok[0] == '=' && (|tok| == 1 || tok[1] == '\0')
  }

  /** The name a token binds: `strndup(prv.ptr, prv.sz)`, quotes kept, cut at a NUL. */
  function NameOf(tok: string): (r: string)
    ensures r <= tok && '\0' !in r
    ensures |r| < |tok| ==> tok[|r|] == '\0'
  {
    CStr(tok)
  }

  /**
   `set_var` as the parse loop reaches it. A new name in a store whose
   VARIABLE_MAX entries are all used is StoreFull: the C code writes past its
   array there.
   */
  function Bind(cfg: Config, name: string, v: Value): (r: Result<Config>)
    requires Bounded(cfg)
    ensures r.Err? <==> !Has(cfg, name) && NVars(cfg) == VARIABLE_MAX
    ensures r.Err? ==> r.error == StoreFull
    ensures r.Ok? ==> Bounded(r.value) && GetVar(r.value, name) == v
    ensures r.Ok? ==> forall other :: other != name ==> GetVar(r.value, other) == GetVar(cfg, other)
    ensures r.Ok? && Unique(cfg) ==> Unique(r.value)
    ensures r.Ok? ==> NVars(r.value) == NVars(cfg) + (if Has(cfg, name) then 0 else 1)
  {
    if !Has(cfg, name) && |cfg.vars| >= VARIABLE_MAX then Err(StoreFull)
    else Ok(SetVar(cfg, name, v))
  }

  /** No entry of the store holds Nil: every stored value came from a coercion. */
  predicate AllSet(cfg: Config)
  {
    forall i :: 0 <= i < |cfg.vars| ==> cfg.vars[i].value != Nil
  }

  /**
   One turn of the `while (tok.sz)` loop with `prv` the candidate name and p
   the read position after it: read the next token; at end of input stop; if
   it is `=`, read the value token (end of input here is the unexpected-EOF
   error), coerce it, bind it to `prv`, and go on with the value token as the
   next candidate; any other token simply becomes the next candidate.
   */
  function Loop(s: string, p: nat, prv: string, cfg: Config): (r: Result<Config>)
    requires p <= |s| && Bounded(cfg)
    ensures r.Ok? ==> Bounded(r.value)
    ensures r.Ok? && Unique(cfg) ==> Unique(r.value)
    ensures r.Ok? && AllSet(cfg) ==> AllSet(r.value)
    ensures r.Ok? ==> NVars(cfg) <= NVars(r.value)
    decreases |s| - p
  {
    var lx :- NextToken(s, p);
    if lx.token == [] then Ok(cfg)
    else if !IsAssign(lx.token) then Loop(s, lx.next, lx.token, cfg)
    else
      var vx :- NextToken(s, lx.next);
      if vx.token == [] then Err(UnexpectedEof)
      else
        var v :- TokenToValue(vx.token);
        var cfg' :- Bind(cfg, NameOf(prv), v);
        BindKeepsAllSet(cfg, NameOf(prv), v, cfg');
        Loop(s, vx.next, vx.token, cfg')
  }

  /** Binding a coerced (never Nil) value keeps every entry set. */
  lemma BindKeepsAllSet(cfg: Config, name: string, v: Value, cfg': Config)
    requires Bounded(cfg) && v != Nil && Bind(cfg, name, v) == Ok(cfg')
    ensures AllSet(cfg) ==> AllSet(cfg')
  {
    if AllSet(cfg) {
      forall i | 0 <= i < |cfg'.vars|
        ensures cfg'.vars[i].value != Nil
      {
        if i < |cfg.vars| && cfg.vars[i].name != name {
          assert cfg'.vars[i] == cfg.vars[i];
        }
      }
    }
  }

  /** `init_config` on the text of the file: a store of names unique within VARIABLE_MAX entries, none holding Nil. */
  function Parse(s: string): (r: Result<Config>)
    ensures r.Ok? ==> Bounded(r.value) && Unique(r.value) && AllSet(r.value)
  {
    var lx :- NextToken(s, 0);
    if lx.token == [] then Ok(Empty) else Loop(s, lx.next, lx.token, Empty)
  }

  // ----- The sliding-window reading of the token stream -----

  /** Every token immediately followed by an `=` token, paired with the token after that `=`. */
  function Window(t: seq<string>): (r: seq<(string, string)>)
    ensures forall k :: 0 <= k < |r| ==> r[k].0 in t && r[k].1 in t
  {
    if |t| < 3 then [] else (if IsAssign(t[1]) then [(t[0], t[2])] else []) + Window(t[1..])
  }

  /** The tokens end with an `=` that follows some token, so its value is missing. */
  predicate Dangling(t: seq<string>)
  {
    |t| >= 2 && IsAssign(t[|t| - 1])
  }

  /** Coerce and bind the pairs in order. */
  function ApplyAll(cfg: Config, ps: seq<(string, string)>): (r: Result<Config>)
    requires Bounded(cfg)
    requires forall k :: 0 <= k < |ps| ==> IsToken(ps[k].1)
    decreases |ps|
  {
    if |ps| == 0 then Ok(cfg)
    else
      var v :- TokenToValue(ps[0].1);
      var c :- Bind(cfg, NameOf(ps[0].0), v);
      ApplyAll(c, ps[1..])
  }

  /**
   The store the window of a token list describes, starting from cfg: the
   pairs are applied in order, and only then does an `=` left without a value
   at the end count as the unexpected-EOF error.
   */
  function FromTokens(cfg: Config, t: seq<string>): Result<Config>
    requires Bounded(cfg)
    requires forall k :: 0 <= k < |t| ==> IsToken(t[k])
  {
    var c :- ApplyAll(cfg, Window(t));
    if Dangling(t) then Err(UnexpectedEof) else Ok(c)
  }

  /** The window after a token that is not followed by `=` is the window of the rest. */
  lemma WindowSkip(t: seq<string>)
    requires |t| >= 2 && !IsAssign(t[1])
    ensures Window(t) == Window(t[1..])
    ensures Dangling(t) == Dangling(t[1..])
  {
  }

  /** The window of `prv = v rest` is the pair (prv, v) followed by the window of `v rest`. */
  lemma WindowBind(prv: string, eq: string, v: string, rest: seq<string>)
    requires IsAssign(eq) && !IsAssign(v)
    ensures Window([prv, eq, v] + rest) == [(prv, v)] + Window([v] + rest)
    ensures Dangling([prv, eq, v] + rest) == Dangling([v] + rest)
  {
    var t := [prv, eq, v] + rest;
    assert t[1..] == [eq, v] + rest;
    assert t[1..][1..] == [v] + rest;
  }

  /** A token that passes the `=` test is never a value. */
  lemma AssignIsNoValue(tok: string)
    requires IsToken(tok) && IsAssign(tok)
    ensures TokenToValue(tok).Err?
  {
  }

  /** The agreement LoopIsWindow states, for one loop state. */
  predicate Agrees(s: string, p: nat, prv: string, cfg: Config)
    requires p <= |s| && Bounded(cfg) && IsToken(prv)
  {
    && (Loop(s, p, prv, cfg).Ok? ==> Tokens(s, p).Ok?)
    && (Tokens(s, p).Ok? ==> Loop(s, p, prv, cfg) == FromTokens(cfg, [prv] + Tokens(s, p).value))
  }

  /**
   The loop binds exactly the window of the token stream it reads: from a
   candidate prv it fails whenever the tokens after it cannot be read, and
   when they can, it gives the same result as their window, the same store
   on success and the same first error on failure.
   */
  lemma {:induction false} LoopIsWindow(s: string, p: nat, prv: string, cfg: Config)
    requires p <= |s| && Bounded(cfg) && IsToken(prv)
    ensures Loop(s, p, prv, cfg).Ok? ==> Tokens(s, p).Ok?
    ensures Tokens(s, p).Ok? ==> Loop(s, p, prv, cfg) == FromTokens(cfg, [prv] + Tokens(s, p).value)
    decreases |s| - p
  {
    var r := NextToken(s, p);
    if r.Ok? {
      var lx := r.value;
      if lx.token == [] {
        assert Tokens(s, p) == Ok([]);
        assert [prv] + [] == [prv];
      } else if !IsAssign(lx.token) {
        LoopIsWindow(s, lx.next, lx.token, cfg);
        StepSkip(s, p, prv, cfg, lx);
      } else {
        var r2 := NextToken(s, lx.next);
        if r2.Ok? && r2.value.token != [] {
          var vx := r2.value;
          var cv := TokenToValue(vx.token);
          if cv.Ok? && Bind(cfg, NameOf(prv), cv.value).Ok? {
            LoopIsWindow(s, vx.next, vx.token, Bind(cfg, NameOf(prv), cv.value).value);
          }
        }
        StepAssign(s, p, prv, cfg, lx);
      }
    }
  }

  /** The induction step for a token that is not `=`. */
  lemma StepSkip(s: string, p: nat, prv: string, cfg: Config, lx: Lexeme)
    requires p <= |s| && Bounded(cfg) && IsToken(prv)
    requires NextToken(s, p) == Ok(lx) && lx.token != [] && !IsAssign(lx.token)
    requires Agrees(s, lx.next, lx.token, cfg)
    ensures Agrees(s, p, prv, cfg)
  {
    assert Loop(s, p, prv, cfg) == Loop(s, lx.next, lx.token, cfg);
    var ts := Tokens(s, lx.next);
    if ts.Ok? {
      assert Tokens(s, p) == Ok([lx.token] + ts.value);
      var t := [prv] + Tokens(s, p).value;
      assert t[1..] == [lx.token] + ts.value;
      WindowSkip(t);
    }
  }

  /** The induction step for an `=` token. */
  lemma StepAssign(s: string, p: nat, prv: string, cfg: Config, lx: Lexeme)
    requires p <= |s| && Bounded(cfg) && IsToken(prv)
    requires NextToken(s, p) == Ok(lx) && lx.token != [] && IsAssign(lx.token)
    requires var r2 := NextToken(s, lx.next);
      r2.Ok? && r2.value.token != [] && TokenToValue(r2.value.token).Ok?
      && Bind(cfg, NameOf(prv), TokenToValue(r2.value.token).value).Ok?
      ==> Agrees(s, r2.value.next, r2.value.token, Bind(cfg, NameOf(prv), TokenToValue(r2.value.token).value).value)
    ensures Agrees(s, p, prv, cfg)
  {
    var r2 := NextToken(s, lx.next);
    if r2.Err? {
      assert Tokens(s, lx.next).Err?;
    } else if r2.value.token == [] {
      assert Tokens(s, lx.next) == Ok([]);
      assert [lx.token] + [] == [lx.token];
      assert Tokens(s, p) == Ok([lx.token]);
      assert Dangling([prv] + [lx.token]);
    } else {
      var vx := r2.value;
      var ts := Tokens(s, vx.next);
      if ts.Ok? {
        assert Tokens(s, lx.next) == Ok([vx.token] + ts.value);
        assert Tokens(s, p) == Ok([lx.token] + ([vx.token] + ts.value));
        StepValueWindow(prv, lx.token, vx.token, ts.value);
      }
    }
  }

  /** The window of a stream at an `=` whose value token follows: the binding, then the window from the value on. */
  lemma StepValueWindow(prv: string, eq: string, v: string, rest: seq<string>)
    requires IsAssign(eq) && IsToken(v)
    ensures var t := [prv] + ([eq] + ([v] + rest));
      && (TokenToValue(v).Ok? ==> Window(t) == [(prv, v)] + Window([v] + rest) && Dangling(t) == Dangling([v] + rest))
      && Window(t) == [(prv, v)] + Window(t[1..])
  {
    var t := [prv] + ([eq] + ([v] + rest));
    assert t == [prv, eq, v] + rest;
    if TokenToValue(v).Ok? {
      assert !IsAssign(v);
      WindowBind(prv, eq, v, rest);
    }
  }

  /**
   A whole input fails to parse whenever its token stream cannot be read, and
   otherwise parses to what the window of that stream gives from an empty
   store, errors included.
   */
  lemma ParseIsWindow(s: string)
    ensures Parse(s).Ok? ==> Tokens(s, 0).Ok?
    ensures Tokens(s, 0).Ok? ==> Parse(s) == FromTokens(Empty, Tokens(s, 0).value)
  {
    var r := NextToken(s, 0);
    if r.Ok? && r.value.token != [] {
      LoopIsWindow(s, r.value.next, r.value.token, Empty);
      var ts := Tokens(s, r.value.next);
      if ts.Ok? {
        assert Tokens(s, 0) == Ok([r.value.token] + ts.value);
      }
    } else if r.Ok? {
      assert Tokens(s, 0) == Ok([]);
    }
  }

  /** The value token of the last pair whose name is `name`. */
  function LastFor(ps: seq<(string, string)>, name: string): (r: Option<string>)
    ensures r.Some? ==> exists k :: 0 <= k < |ps| && ps[k].1 == r.value && NameOf(ps[k].0) == name
    ensures r.None? ==> forall k :: 0 <= k < |ps| ==> NameOf(ps[k].0) != name
  {
    if |ps| == 0 then None
    else match LastFor(ps[1..], name)
      case Some(x) => Some(x)
      case None => if NameOf(ps[0].0) == name then Some(ps[0].1) else None
  }

  /** After binding pairs in order, a name holds the value of its last pair, or what it held before. */
  lemma {:induction false} ApplyAllGet(cfg: Config, ps: seq<(string, string)>, name: string)
    requires Bounded(cfg)
    requires forall k :: 0 <= k < |ps| ==> IsToken(ps[k].1)
    requires ApplyAll(cfg, ps).Ok?
    ensures LastFor(ps, name).Some? ==> TokenToValue(LastFor(ps, name).value).Ok?
    ensures LastFor(ps, name).None? ==> GetVar(ApplyAll(cfg, ps).value, name) == GetVar(cfg, name)
    ensures LastFor(ps, name).Some? ==> GetVar(ApplyAll(cfg, ps).value, name) == TokenToValue(LastFor(ps, name).value).value
    decreases |ps|
  {
    if |ps| > 0 {
      var v := TokenToValue(ps[0].1).value;
      var c := Bind(cfg, NameOf(ps[0].0), v).value;
      ApplyAllGet(c, ps[1..], name);
      if LastFor(ps[1..], name).None? && NameOf(ps[0].0) == name {
        assert LastFor(ps, name) == Some(ps[0].1);
      }
    }
  }

  /**
   Lookup after parsing: a name holds the coerced value of the last
   `name = value` of the input, and is Nil when no such binding appears.
   */
  lemma GetAfterParse(s: string, name: string)
    requires Parse(s).Ok?
    ensures Tokens(s, 0).Ok?
    ensures var ps := Window(Tokens(s, 0).value);
      && (LastFor(ps, name).None? ==> GetVar(Parse(s).value, name) == Nil)
      && (LastFor(ps, name).Some? ==>
            (TokenToValue(LastFor(ps, name).value).Ok?
             && GetVar(Parse(s).value, name) == TokenToValue(LastFor(ps, name).value).value))
  {
    ParseIsWindow(s);
    var t := Tokens(s, 0).value;
    ApplyAllGet(Empty, Window(t), name);
  }

  /** For tokens without NUL, the `=` test is plain equality with "=". */
  lemma AssignIsEquals(tok: string)
    requires '\0' !in tok
    ensures IsAssign(tok) <==> tok == "="
  {
  }

  /** A quoted value never closed is the unterminated-string error. */
  lemma UnterminatedExample()
    ensures Parse("key = \"abc") == Err(UnterminatedString)
  {
    var s := "key = \"abc";
    assert SkipSpace(s, 0) == 0;
    assert s[0..3] == "key";
    TokenAt(s, 0, 3);
    assert SkipSpace(s, 3) == 4;
    assert s[4..5] == "=";
    TokenAt(s, 3, 5);
    assert SkipSpace(s, 5) == 6;
    assert Unterminated(s, 6);
  }

  /** An `=` with no token after it is the unexpected-EOF error, whatever store and candidate name came before. */
  lemma MissingValue(s: string, p: nat, prv: string, cfg: Config, lx: Lexeme)
    requires p <= |s| && Bounded(cfg)
    requires NextToken(s, p) == Ok(lx) && lx.token != [] && IsAssign(lx.token)
    requires NextToken(s, lx.next).Ok? && NextToken(s, lx.next).value.token == []
    ensures Loop(s, p, prv, cfg) == Err(UnexpectedEof)
  {
  }

  /** `k =` at the end of the file is the unexpected-EOF error. */
  lemma MissingValueExample()
    ensures Parse("k =") == Err(UnexpectedEof)
  {
    var s := "k =";
    assert SkipSpace(s, 0) == 0;
    assert s[0..1] == "k";
    TokenAt(s, 0, 1);
    assert SkipSpace(s, 1) == 2;
    assert s[2..3] == "=";
    TokenAt(s, 1, 3);
    assert SkipSpace(s, 3) == 3;
    MissingValue(s, 1, "k", Empty, Lexeme("=", 3));
  }

  /** In `a = =` the second `=` is read as the value and fails to coerce before the end of input is reached. */
  lemma AssignAsValueExample()
    ensures Parse("a = =") == Err(UnknownValue("="))
  {
    var s := "a = =";
    assert SkipSpace(s, 0) == 0;
    assert s[0..1] == "a";
    TokenAt(s, 0, 1);
    assert SkipSpace(s, 1) == 2;
    assert s[2..3] == "=";
    TokenAt(s, 1, 3);
    assert SkipSpace(s, 3) == 4;
    assert s[4..5] == "=";
    TokenAt(s, 3, 5);
    assert CStr("=") == "=";
  }

  /** The window of three `name = value` bindings in a row is their three pairs. */
  lemma ThreeWindow(n1: string, t1: string, n2: string, t2: string, n3: string, t3: string)
    requires !IsAssign(n2) && !IsAssign(n3) && !IsAssign(t1) && !IsAssign(t2) && !IsAssign(t3)
    ensures Window([n1, "=", t1, n2, "=", t2, n3, "=", t3]) == [(n1, t1), (n2, t2), (n3, t3)]
    ensures !Dangling([n1, "=", t1, n2, "=", t2, n3, "=", t3])
  {
    var r3 := [n3, "=", t3];
    var r2 := [n2, "=", t2] + r3;
    assert [n1, "=", t1, n2, "=", t2, n3, "=", t3] == [n1, "=", t1] + r2;
    WindowBind(n3, "=", t3, []);
    assert r3 == [n3, "=", t3] + [];
    WindowBind(n2, "=", t2, r3);
    WindowSkip([t2] + r3);
    assert ([t2] + r3)[1..] == r3;
    WindowBind(n1, "=", t1, r2);
    WindowSkip([t1] + r2);
    assert ([t1] + r2)[1..] == r2;
  }

  /** Binding a name the store does not hold, below the bound, appends it. */
  lemma BindFresh(cfg: Config, name: string, v: Value)
    requires |cfg.vars| < VARIABLE_MAX
    requires forall k :: 0 <= k < |cfg.vars| ==> cfg.vars[k].name != name
    ensures Bind(cfg, name, v) == Ok(Config(cfg.vars + [Variable(name, v)]))
  {
  }

  /** One pair of ApplyAll: coerce, bind, continue with the rest. */
  lemma ApplyAllStep(cfg: Config, ps: seq<(string, string)>, v: Value, cfg': Config)
    requires Bounded(cfg) && |ps| > 0
    requires forall k :: 0 <= k < |ps| ==> IsToken(ps[k].1)
    requires TokenToValue(ps[0].1) == Ok(v) && Bind(cfg, NameOf(ps[0].0), v) == Ok(cfg')
    ensures ApplyAll(cfg, ps) == ApplyAll(cfg', ps[1..])
  {
  }

  /** Every value token of the pairs coerces. */
  predicate Coercible(ps: seq<(string, string)>)
  {
    forall k :: 0 <= k < |ps| ==> IsToken(ps[k].1) && TokenToValue(ps[k].1).Ok?
  }

  /** The entries the pairs describe, in order. */
  function Entries(ps: seq<(string, string)>): (r: seq<Variable>)
    requires Coercible(ps)
    ensures |r| == |ps|
    ensures forall k :: 0 <= k < |ps| ==> r[k] == Variable(NameOf(ps[k].0), TokenToValue(ps[k].1).value)
  {
    if |ps| == 0 then [] else [Variable(NameOf(ps[0].0), TokenToValue(ps[0].1).value)] + Entries(ps[1..])
  }

  /** The pairs bind pairwise distinct names, none of them already in the store. */
  predicate FreshNames(cfg: Config, ps: seq<(string, string)>)
  {
    && (forall i, j :: 0 <= i < j < |ps| ==> NameOf(ps[i].0) != NameOf(ps[j].0))
    && (forall i, k :: 0 <= i < |ps| && 0 <= k < |cfg.vars| ==> cfg.vars[k].name != NameOf(ps[i].0))
  }

  /** Dropping the first pair keeps the rest fresh for the store with its entry appended. */
  lemma FreshTail(cfg: Config, ps: seq<(string, string)>, x: Variable)
    requires |ps| > 0 && FreshNames(cfg, ps) && x.name == NameOf(ps[0].0)
    ensures FreshNames(Config(cfg.vars + [x]), ps[1..])
  {
    var c := Config(cfg.vars + [x]);
    forall i, k | 0 <= i < |ps[1..]| && 0 <= k < |c.vars|
      ensures c.vars[k].name != NameOf(ps[1..][i].0)
    {
      assert ps[1..][i] == ps[i + 1];
      if k == |cfg.vars| {
        assert c.vars[k] == x;
      } else {
        assert c.vars[k] == cfg.vars[k];
      }
    }
    forall i, j | 0 <= i < j < |ps[1..]|
      ensures NameOf(ps[1..][i].0) != NameOf(ps[1..][j].0)
    {
      assert ps[1..][i] == ps[i + 1] && ps[1..][j] == ps[j + 1];
    }
  }

  /** The first of fresh pairs binds by appending, and the rest stay coercible and fresh. */
  lemma FreshStep(cfg: Config, ps: seq<(string, string)>)
    requires |ps| > 0 && Coercible(ps) && FreshNames(cfg, ps)
    requires |cfg.vars| + |ps| <= VARIABLE_MAX
    ensures Bind(cfg, NameOf(ps[0].0), Entries(ps)[0].value) == Ok(Config(cfg.vars + [Entries(ps)[0]]))
    ensures Coercible(ps[1..]) && FreshNames(Config(cfg.vars + [Entries(ps)[0]]), ps[1..])
    ensures Entries(ps) == [Entries(ps)[0]] + Entries(ps[1..])
  {
    var x := Entries(ps)[0];
    BindFresh(cfg, NameOf(ps[0].0), x.value);
    FreshTail(cfg, ps, x);
    var rest := ps[1..];
    forall k | 0 <= k < |rest| ensures IsToken(rest[k].1) && TokenToValue(rest[k].1).Ok? {
      assert rest[k] == ps[k + 1];
    }
  }

  /** The inductive step of ApplyFresh: the first entry is appended, then the entries of the rest. */
  lemma FreshCons(cfg: Config, ps: seq<(string, string)>, x: Variable, c: Config, tail: seq<Variable>)
    requires Bounded(cfg) && |ps| > 0
    requires forall k :: 0 <= k < |ps| ==> IsToken(ps[k].1)
    requires TokenToValue(ps[0].1) == Ok(x.value)
    requires Bind(cfg, NameOf(ps[0].0), x.value) == Ok(c) && c == Config(cfg.vars + [x])
    requires ApplyAll(c, ps[1..]) == Ok(Config(c.vars + tail))
    ensures ApplyAll(cfg, ps) == Ok(Config(cfg.vars + ([x] + tail)))
  {
    ApplyAllStep(cfg, ps, x.value, c);
    AppendAssoc(cfg.vars, [x], tail);
  }

  lemma AppendAssoc<T>(a: seq<T>, b: seq<T>, c: seq<T>)
    ensures a + b + c == a + (b + c)
  {
  }

  /** Binding pairs of fresh, distinct names appends their entries in order. */
  lemma {:induction false} ApplyFresh(cfg: Config, ps: seq<(string, string)>)
    requires Coercible(ps) && FreshNames(cfg, ps)
    requires |cfg.vars| + |ps| <= VARIABLE_MAX
    ensures ApplyAll(cfg, ps) == Ok(Config(cfg.vars + Entries(ps)))
    decreases |ps|
  {
    if |ps| == 0 {
      assert cfg.vars + Entries(ps) == cfg.vars;
    } else {
      var x := Entries(ps)[0];
      var c := Config(cfg.vars + [x]);
      FreshStep(cfg, ps);
      ApplyFresh(c, ps[1..]);
      FreshCons(cfg, ps, x, c, Entries(ps[1..]));
    }
  }

  /** Three coercible pairs of distinct names describe their three entries. */
  lemma ThreeEntries(ps: seq<(string, string)>, xs: seq<Variable>,
                     n1: string, t1: string, v1: Value, n2: string, t2: string, v2: Value, n3: string, t3: string, v3: Value)
    requires ps == [(n1, t1), (n2, t2), (n3, t3)]
    requires xs == [Variable(NameOf(n1), v1), Variable(NameOf(n2), v2), Variable(NameOf(n3), v3)]
    requires IsToken(t1) && IsToken(t2) && IsToken(t3)
    requires TokenToValue(t1) == Ok(v1) && TokenToValue(t2) == Ok(v2) && TokenToValue(t3) == Ok(v3)
    requires NameOf(n1) != NameOf(n2) && NameOf(n1) != NameOf(n3) && NameOf(n2) != NameOf(n3)
    ensures Coercible(ps) && FreshNames(Empty, ps) && Entries(ps) == xs
  {
    assert ps[0] == (n1, t1) && ps[1] == (n2, t2) && ps[2] == (n3, t3);
    forall k | 0 <= k < |ps|
      ensures IsToken(ps[k].1) && TokenToValue(ps[k].1).Ok?
    {
      assert ps[k].1 in {t1, t2, t3};
    }
    ThreeEntriesList(ps, xs);
  }

  /** The entries of three coercible pairs, one by one. */
  lemma ThreeEntriesList(ps: seq<(string, string)>, xs: seq<Variable>)
    requires |ps| == 3 && Coercible(ps)
    requires xs == [Variable(NameOf(ps[0].0), TokenToValue(ps[0].1).value),
                    Variable(NameOf(ps[1].0), TokenToValue(ps[1].1).value),
                    Variable(NameOf(ps[2].0), TokenToValue(ps[2].1).value)]
    ensures Entries(ps) == xs
  {
  }

  /** Binding three distinct names in order into an empty store appends them in that order. */
  lemma ThreeApply(n1: string, t1: string, v1: Value, n2: string, t2: string, v2: Value, n3: string, t3: string, v3: Value)
    requires IsToken(t1) && IsToken(t2) && IsToken(t3)
    requires TokenToValue(t1) == Ok(v1) && TokenToValue(t2) == Ok(v2) && TokenToValue(t3) == Ok(v3)
    requires NameOf(n1) != NameOf(n2) && NameOf(n1) != NameOf(n3) && NameOf(n2) != NameOf(n3)
    ensures ApplyAll(Empty, [(n1, t1), (n2, t2), (n3, t3)])
      == Ok(Config([Variable(NameOf(n1), v1), Variable(NameOf(n2), v2), Variable(NameOf(n3), v3)]))
  {
    var ps := [(n1, t1), (n2, t2), (n3, t3)];
    var xs := [Variable(NameOf(n1), v1), Variable(NameOf(n2), v2), Variable(NameOf(n3), v3)];
    ThreeEntries(ps, xs, n1, t1, v1, n2, t2, v2, n3, t3, v3);
    ApplyFresh(Empty, ps);
    assert Empty.vars + xs == xs;
  }

  /**
   An input whose tokens are three bindings of distinct names, one after
   another, parses to a store of three entries in file order.
   */
  lemma ThreeBindings(s: string, n1: string, t1: string, v1: Value, n2: string, t2: string, v2: Value, n3: string, t3: string, v3: Value)
    requires Tokens(s, 0) == Ok([n1, "=", t1, n2, "=", t2, n3, "=", t3])
    requires IsToken(t1) && IsToken(t2) && IsToken(t3)
    requires !IsAssign(n2) && !IsAssign(n3) && !IsAssign(t1) && !IsAssign(t2) && !IsAssign(t3)
    requires TokenToValue(t1) == Ok(v1) && TokenToValue(t2) == Ok(v2) && TokenToValue(t3) == Ok(v3)
    requires NameOf(n1) != NameOf(n2) && NameOf(n1) != NameOf(n3) && NameOf(n2) != NameOf(n3)
    ensures Parse(s) == Ok(Config([Variable(NameOf(n1), v1), Variable(NameOf(n2), v2), Variable(NameOf(n3), v3)]))
  {
    ParseIsWindow(s);
    ThreeWindow(n1, t1, n2, t2, n3, t3);
    ThreeApply(n1, t1, v1, n2, t2, v2, n3, t3, v3);
  }

  /** The sample's integers coerce to the numbers they spell. */
  lemma SampleInts()
    ensures IsToken("900") && TokenToValue("900") == Ok(Int(900))
    ensures IsToken("500") && TokenToValue("500") == Ok(Int(500))
  {
    assert Decimal(9) == "9" && Decimal(90) == "90";
    assert Decimal(900) == "900";
    IntRoundTrip(900);
    assert Decimal(5) == "5" && Decimal(50) == "50";
    assert Decimal(500) == "500";
    IntRoundTrip(500);
  }

  /** The sample's quoted title coerces to the text between its quotes. */
  lemma SampleTitle()
    ensures IsToken("\"Terminal\"") && TokenToValue("\"Terminal\"") == Ok(Str("Terminal"))
  {
    assert Quote("Terminal") == "\"Terminal\"";
    QuoteRoundTrip("Terminal");
  }

  /** A short run of lower-case letters is an atom, not `=`, and its own C string. */
  lemma LowerName(s: string)
    requires 1 <= |s| < STRING_MAX && forall k :: 0 <= k < |s| ==> 'a' <= s[k] <= 'z'
    ensures IsToken(s) && !IsAssign(s) && NameOf(s) == s
  {
    CStrOfPlain(s);
  }

  /** The sample's names are plain atoms. */
  lemma SampleNames(w: string, h: string, t: string)
    requires w == "width" && h == "height" && t == "title"
    ensures IsToken(w) && !IsAssign(w) && NameOf(w) == w
    ensures IsToken(h) && !IsAssign(h) && NameOf(h) == h
    ensures IsToken(t) && !IsAssign(t) && NameOf(t) == t
  {
    LowerName(w);
    LowerName(h);
    LowerName(t);
  }

  /** Rendering a token in front of others: the token, its blank, then the rest. */
  lemma RenderCons(t: string, sep: char, rest: seq<string>, seps: string)
    requires |seps| == |rest|
    ensures Render([t] + rest, [sep] + seps) == t + [sep] + Render(rest, seps)
  {
    assert ([t] + rest)[1..] == rest && ([sep] + seps)[1..] == seps;
  }

  /** One `name = value` line: the name, the `=` and the value, each followed by its blank. */
  lemma RenderLine(a: string, b: string, rest: seq<string>, seps: string)
    requires |seps| == |rest|
    ensures Render([a, "=", b] + rest, "  \n" + seps) == a + " = " + b + "\n" + Render(rest, seps)
  {
    var r := Render(rest, seps);
    RenderCons(b, '\n', rest, seps);
    RenderCons("=", ' ', [b] + rest, ['\n'] + seps);
    RenderCons(a, ' ', ["="] + ([b] + rest), [' '] + (['\n'] + seps));
    LineLists(a, b, rest, seps);
    LineText(a, b, r);
  }

  lemma LineLists(a: string, b: string, rest: seq<string>, seps: string)
    ensures [a] + (["="] + ([b] + rest)) == [a, "=", b] + rest
    ensures [' '] + ([' '] + (['\n'] + seps)) == "  \n" + seps
  {
  }

  lemma LineText(a: string, b: string, r: string)
    ensures a + [' '] + ("=" + [' '] + (b + ['\n'] + r)) == a + " = " + b + "\n" + r
  {
  }

  /** The three lines of the sample, rendered token by token. */
  lemma SampleBody(w: string, h: string, t: string, title: string)
    ensures var toks := [w, "=", "900", h, "=", "500", t, "=", title];
      Render(toks, "  \n  \n  \n") == w + " = " + "900" + "\n" + (h + " = " + "500" + "\n" + (t + " = " + title + "\n"))
  {
    RenderLine(t, title, [], "");
    assert [t, "=", title] + [] == [t, "=", title] && "  \n" + "" == "  \n";
    RenderLine(h, "500", [t, "=", title], "  \n");
    assert [h, "=", "500"] + [t, "=", title] == [h, "=", "500", t, "=", title];
    assert "  \n" + "  \n" == "  \n  \n";
    RenderLine(w, "900", [h, "=", "500", t, "=", title], "  \n  \n");
    assert [w, "=", "900"] + [h, "=", "500", t, "=", title] == [w, "=", "900", h, "=", "500", t, "=", title];
    assert "  \n" + "  \n  \n" == "  \n  \n  \n";
  }

  /** The comment line that opens the sample. */
  lemma SampleComment(s: string, c: string, body: string)
    requires c == "# fterm\n" && s == c + body
    ensures |c| == 8 && s[8..] == body
    ensures s[0] == '#' && s[7] == '\n' && forall k :: 0 < k < 7 ==> s[k] != '\n'
  {
    assert s[..8] == c;
  }

  /** The sample's text: the comment line, then its nine tokens rendered with their blanks. */
  lemma SampleText(s: string, w: string, h: string, t: string, title: string)
    requires s == "# fterm\n" + w + " = 900\n" + h + " = 500\n" + t + " = " + title + "\n"
    ensures s[8..] == Render([w, "=", "900", h, "=", "500", t, "=", title], "  \n  \n  \n")
    ensures s[0] == '#' && s[7] == '\n' && forall k :: 0 < k < 7 ==> s[k] != '\n'
  {
    var body := w + " = " + "900" + "\n" + (h + " = " + "500" + "\n" + (t + " = " + title + "\n"));
    SampleBody(w, h, t, title);
    assert s == "# fterm\n" + body;
    SampleComment(s, "# fterm\n", body);
  }

  /** The sample's tokens are all well formed, and its separators blank. */
  lemma SampleWellFormed(w: string, h: string, t: string, title: string)
    requires w == "width" && h == "height" && t == "title" && title == "\"Terminal\""
    ensures Blanks("  \n  \n  \n")
    ensures var toks := [w, "=", "900", h, "=", "500", t, "=", title];
      forall k :: 0 <= k < |toks| ==> IsToken(toks[k])
  {
    SampleInts();
    SampleTitle();
    SampleNames(w, h, t);
    assert IsToken("=");
  }

  /** The sample reads as its nine tokens: the comment is skipped, the newlines are blanks. */
  lemma SampleTokens(s: string, w: string, h: string, t: string, title: string)
    requires w == "width" && h == "height" && t == "title" && title == "\"Terminal\""
    requires s == "# fterm\n" + w + " = 900\n" + h + " = 500\n" + t + " = " + title + "\n"
    ensures Tokens(s, 0) == Ok([w, "=", "900", h, "=", "500", t, "=", title])
  {
    SampleText(s, w, h, t, title);
    SampleWellFormed(w, h, t, title);
    RenderTokens(s, 8, [w, "=", "900", h, "=", "500", t, "=", title], "  \n  \n  \n");
    CommentLine(s, 0, 8);
  }

  /** The sample settings file: a comment line, then width 900, height 500 and title Terminal, one per line. */
  lemma SampleFile(s: string, w: string, h: string, t: string, title: string)
    requires w == "width" && h == "height" && t == "title" && title == "\"Terminal\""
    requires s == "# fterm\n" + w + " = 900\n" + h + " = 500\n" + t + " = " + title + "\n"
    ensures Parse(s) == Ok(Config([Variable(w, Int(900)), Variable(h, Int(500)), Variable(t, Str("Terminal"))]))
  {
    SampleTokens(s, w, h, t, title);
    SampleInts();
    SampleTitle();
    SampleNames(w, h, t);
    ThreeBindings(s, w, "900", Int(900), h, "500", Int(500), t, title, Str("Terminal"));
  }
}

=== FILE: settings.dfy ===
/**
 The settings fterm.c reads from a parsed configuration: the `GET_VAR_OR`
 macro, the key/type table of `lookup_config` and `parse_colors`, and the
 settings they update. Each setting's default is its current value, so a
 lookup maps the current settings to the new ones.
 */
module Settings {
  import opened Values
  import opened Digits
  import opened Store
  import opened Parser
  import opened Lexer
  import opened Coerce

  /** The settings `lookup_config` assigns, held in the static globals of fterm.c:14-20. `alpha` is a real's raw text (see Values.Value). */
  datatype Options = Options(
    width: int,
    height: int,
    alpha: string,
    title: string,
    shell: string,
    font: string,
    colors: seq<string>)

  /** The built-in palette `colors[16]`. */
  const Palette: seq<string> := ["#000", "#800", "#080", "#880", "#008", "#808", "#088", "#ccc",
                                 "#888", "#f00", "#0f0", "#ff0", "#00f", "#f0f", "#0ff", "#fff"]

  /** The settings before any configuration is read. */
  const Defaults: Options := Options(900, 500, "1.0", "Terminal", "/usr/bin/bash", "monospace 15", Palette)

  const INT_MIN: int := -0x8000_0000
  const INT_MAX: int := 0x7fff_ffff

  /** The C types of the settings: `int` width and height, a palette of exactly 16 entries. */
  predicate WellFormed(st: Options)
  {
    INT_MIN <= st.width <= INT_MAX && INT_MIN <= st.height <= INT_MAX && |st.colors| == 16
  }

  /**
   Storing a `long` into an `int` (`width = ... .as_int`): the value modulo
   2^32, read back as a signed 32-bit number, which is what GCC does with the
   implementation-defined conversion.
   */
  function ToCInt(n: int): (r: int)
    ensures INT_MIN <= r <= INT_MAX
    ensures (r - n) % 0x1_0000_0000 == 0
    ensures INT_MIN <= n <= INT_MAX ==> r == n
  {
    var m := n % 0x1_0000_0000;
    if m > INT_MAX then m - 0x1_0000_0000 else m
  }

  /** A name is absent or holds the type asked for: the lookups that do not end the program. */
  predicate Acceptable(cfg: Config, name: string, t: Tag)
  {
    GetVar(cfg, name) == Nil || TagOf(GetVar(cfg, name)) == t
  }

  /** The value a setting takes: the stored one when present, the default otherwise. */
  function Setting(cfg: Config, name: string, d: Value): Value
  {
    if GetVar(cfg, name) == Nil then d else GetVar(cfg, name)
  }

  /** The fatal error of a strict lookup of `name` as type t. */
  function Mismatch(cfg: Config, name: string, t: Tag): Error
  {
    TypeMismatch(name, TypeName(Code(t)), TypeName(Code(TagOf(GetVar(cfg, name)))))
  }

  /**
   `GET_VAR_OR(C, N, T, D)`: the default when the name is absent, otherwise
   the strict lookup, so a present value of another type is the fatal type
   error and not the default. D always has the type T at the call sites.
   */
  function GetVarOr(cfg: Config, name: string, t: Tag, d: Value): (r: Result<Value>)
    requires TagOf(d) == t
    ensures r.Ok? <==> Acceptable(cfg, name, t)
    ensures r.Ok? ==> r.value == Setting(cfg, name, d) && TagOf(r.value) == t
    ensures r.Err? ==> r.error == Mismatch(cfg, name, t)
  {
    if TagOf(GetVar(cfg, name)) == TNil then Ok(d) else GetVarType(cfg, name, t)
  }

  /** The key `sprintf(var, "color%d", i)` names. */
  function ColorKey(i: nat): (r: string)
    ensures |r| > 5 && r[..5] == "color" && AllDigits(r[5..])
    ensures r[5..] == Decimal(i)
  {
    assert ("color" + Decimal(i))[5..] == Decimal(i);
    "color" + Decimal(i)
  }

  /** Number of keys `lookup_config` reads: six scalars and sixteen colours. */
  const NumKeys: nat := 22

  /** Table position of colour key i: after the six scalar keys. */
  function ColorPos(i: nat): nat
  {
    i + 6
  }

  /** The key/type table in reading order: width, height, alpha, title, shell, font, color0 .. color15. */
  function KeyAt(k: nat): (r: (string, Tag))
    requires k < NumKeys
    ensures r.1 != TNil
    ensures r.1 == TStr <==> k >= 3
    ensures |r.0| >= 4 && (k >= 6 <==> r.0[0] == 'c')
    ensures k >= 6 ==> |r.0| > 5 && r.0[..5] == "color"
  {
    if k == 0 then ("width", TInt)
    else if k == 1 then ("height", TInt)
    else if k == 2 then ("alpha", TReal)
    else if k == 3 then ("title", TStr)
    else if k == 4 then ("shell", TStr)
    else if k == 5 then ("font", TStr)
    else (ColorKey(k - 6), TStr)
  }

  /** The keys of the table at positions from `from` up to `to` are absent or of their type. */
  predicate AcceptableIn(cfg: Config, from: nat, to: nat)
  {
    forall k :: from <= k < to && k < NumKeys ==> Acceptable(cfg, KeyAt(k).0, KeyAt(k).1)
  }

  /** Key k is the first unacceptable one from position `from`, and `e` is its error. */
  predicate FirstFailure(cfg: Config, from: nat, k: nat, e: Error)
  {
    from <= k < NumKeys
    && !Acceptable(cfg, KeyAt(k).0, KeyAt(k).1)
    && AcceptableIn(cfg, from, k)
    && e == Mismatch(cfg, KeyAt(k).0, KeyAt(k).1)
  }

  /** The current value of the scalar setting at table position k, as the default `GET_VAR_OR` is given. */
  function Current(st: Options, k: nat): (v: Value)
    requires k < 6
    ensures TagOf(v) == KeyAt(k).1
  {
    if k == 0 then Int(st.width)
    else if k == 1 then Int(st.height)
    else if k == 2 then Real(st.alpha)
    else if k == 3 then Str(st.title)
    else if k == 4 then Str(st.shell)
    else Str(st.font)
  }

  /** What the C variable of the scalar at position k keeps of a value: `int` settings wrap to 32 bits. */
  function Kept(k: nat, v: Value): Value
  {
    if k < 2 && v.Int? then Int(ToCInt(v.n)) else v
  }

  /** Assign the scalar setting at table position k. */
  function Assign(st: Options, k: nat, v: Value): (r: Options)
    requires k < 6 && TagOf(v) == KeyAt(k).1
    ensures Current(r, k) == Kept(k, v)
    ensures forall j :: 0 <= j < 6 && j != k ==> Current(r, j) == Current(st, j)
    ensures r.colors == st.colors
  {
    if k == 0 then st.(width := ToCInt(v.n))
    else if k == 1 then st.(height := ToCInt(v.n))
    else if k == 2 then st.(alpha := v.text)
    else if k == 3 then st.(title := v.s)
    else if k == 4 then st.(shell := v.s)
    else st.(font := v.s)
  }

  /**
   The scalar lookups of `lookup_config` from table position k on, each
   `GET_VAR_OR` with the current setting as default; the first value of the
   wrong type ends the program with its error.
   */
  function ReadScalars(cfg: Config, st: Options, k: nat): (r: Result<Options>)
    requires k <= 6
    ensures r.Ok? <==> AcceptableIn(cfg, k, 6)
    ensures r.Err? ==> exists j :: FirstFailure(cfg, k, j, r.error)
    ensures r.Ok? ==> forall j :: 0 <= j < k ==> Current(r.value, j) == Current(st, j)
    ensures r.Ok? ==> forall j :: k <= j < 6 ==> Current(r.value, j) == Kept(j, Setting(cfg, KeyAt(j).0, Current(st, j)))
    ensures r.Ok? ==> r.value.colors == st.colors
    decreases 6 - k
  {
    if k == 6 then Ok(st)
    else
      var v := GetVarOr(cfg, KeyAt(k).0, KeyAt(k).1, Current(st, k));
      if v.Err? then
        assert FirstFailure(cfg, k, k, v.error);
        Err(v.error)
      else
        var r := ReadScalars(cfg, Assign(st, k, v.value), k + 1);
        if r.Err? then
          var j :| FirstFailure(cfg, k + 1, j, r.error);
          assert FirstFailure(cfg, k, j, r.error);
          r
        else
          r
  }

  /** The colour keys from index a up to b are absent or strings. */
  predicate ColorsAcceptable(cfg: Config, a: nat, b: nat)
  {
    forall k :: a <= k < b ==> Acceptable(cfg, ColorKey(k), TStr)
  }

  /**
   `parse_colors` from index i on: each colour key is read as a string,
   defaulting to the colour at the same index; the first key of another type
   ends the program with its error.
   */
  function ParseColors(cfg: Config, colors: seq<string>, i: nat): (r: Result<seq<string>>)
    requires |colors| == 16 && i <= 16
    ensures r.Ok? <==> ColorsAcceptable(cfg, i, 16)
    ensures r.Err? ==> exists k :: (i <= k < 16 && ColorsAcceptable(cfg, i, k)
      && !Acceptable(cfg, ColorKey(k), TStr) && r.error == Mismatch(cfg, ColorKey(k), TStr))
    ensures r.Ok? ==> |r.value| == 16
    ensures r.Ok? ==> forall k :: 0 <= k < i ==> r.value[k] == colors[k]
    ensures r.Ok? ==> forall k :: i <= k < 16 ==> Str(r.value[k]) == Setting(cfg, ColorKey(k), Str(colors[k]))
    decreases 16 - i
  {
    if i == 16 then Ok(colors)
    else
      var v := GetVarOr(cfg, ColorKey(i), TStr, Str(colors[i]));
      if v.Err? then
        assert ColorsAcceptable(cfg, i, i);
        Err(v.error)
      else
        var colors' := colors[i := v.value.s];
        var r := ParseColors(cfg, colors', i + 1);
        ColorsStep(cfg, i);
        if r.Err? then
          var k :| i + 1 <= k < 16 && ColorsAcceptable(cfg, i + 1, k)
            && !Acceptable(cfg, ColorKey(k), TStr) && r.error == Mismatch(cfg, ColorKey(k), TStr);
          assert ColorsAcceptable(cfg, i, k);
          r
        else
          assert r.value[i] == colors'[i] == v.value.s;
          r
  }

  /** Colour i followed by the colours after it. */
  lemma ColorsStep(cfg: Config, i: nat)
    ensures forall b :: i < b ==> (ColorsAcceptable(cfg, i, b) <==> Acceptable(cfg, ColorKey(i), TStr) && ColorsAcceptable(cfg, i + 1, b))
  {
  }

  /** The colour part of the table: colour index k sits at table position ColorPos(k). */
  lemma ColorsInTable(cfg: Config, a: nat, b: nat)
    requires a <= b <= 16
    ensures ColorsAcceptable(cfg, a, b) <==> AcceptableIn(cfg, ColorPos(a), ColorPos(b))
  {
    forall k | ColorPos(a) <= k < ColorPos(b)
      ensures KeyAt(k) == (ColorKey(k - 6), TStr)
    {
    }
    if ColorsAcceptable(cfg, a, b) {
      forall k | ColorPos(a) <= k < ColorPos(b) && k < NumKeys
        ensures Acceptable(cfg, KeyAt(k).0, KeyAt(k).1)
      {
        assert a <= k - 6 < b;
      }
    }
    if AcceptableIn(cfg, ColorPos(a), ColorPos(b)) {
      forall k | a <= k < b
        ensures Acceptable(cfg, ColorKey(k), TStr)
      {
        assert KeyAt(ColorPos(k)) == (ColorKey(k), TStr);
      }
    }
  }

  /** Acceptability over a range of the table splits at any middle position. */
  lemma AcceptableSplit(cfg: Config, a: nat, b: nat, c: nat)
    requires a <= b <= c
    ensures AcceptableIn(cfg, a, c) <==> AcceptableIn(cfg, a, b) && AcceptableIn(cfg, b, c)
  {
  }

  /** A failure among the colours, after acceptable scalars, is the first failure of the whole table. */
  lemma ColorFailure(cfg: Config, k: nat, e: Error)
    requires AcceptableIn(cfg, 0, 6)
    requires k < 16 && ColorsAcceptable(cfg, 0, k)
    requires !Acceptable(cfg, ColorKey(k), TStr) && e == Mismatch(cfg, ColorKey(k), TStr)
    ensures FirstFailure(cfg, 0, ColorPos(k), e)
  {
    ColorsInTable(cfg, 0, k);
    AcceptableSplit(cfg, 0, 6, ColorPos(k));
    assert KeyAt(ColorPos(k)) == (ColorKey(k), TStr);
  }

  /**
   `lookup_config` once the file is parsed: the scalar lookups, then
   `parse_colors`. Every setting becomes its stored value when the key is
   present with the right type and keeps its current value when absent; the
   first key present with another type ends the program with its error.
   */
  function LookupConfig(cfg: Config, cur: Options): (r: Result<Options>)
    requires WellFormed(cur)
    ensures r.Ok? <==> AcceptableIn(cfg, 0, NumKeys)
    ensures r.Err? ==> exists k :: FirstFailure(cfg, 0, k, r.error)
    ensures r.Ok? ==> WellFormed(r.value)
    ensures r.Ok? ==> forall k :: 0 <= k < 6 ==> Current(r.value, k) == Kept(k, Setting(cfg, KeyAt(k).0, Current(cur, k)))
    ensures r.Ok? ==> forall i :: 0 <= i < 16 ==> Str(r.value.colors[i]) == Setting(cfg, ColorKey(i), Str(cur.colors[i]))
  {
    var sc := ReadScalars(cfg, cur, 0);
    AcceptableSplit(cfg, 0, 6, NumKeys);
    if sc.Err? then
      Err(sc.error)
    else
      var cs := ParseColors(cfg, cur.colors, 0);
      ColorsInTable(cfg, 0, 16);
      if cs.Err? then
        var k :| 0 <= k < 16 && ColorsAcceptable(cfg, 0, k)
          && !Acceptable(cfg, ColorKey(k), TStr) && cs.error == Mismatch(cfg, ColorKey(k), TStr);
        ColorFailure(cfg, k, cs.error);
        Err(cs.error)
      else
        var r := sc.value.(colors := cs.value);
        ColorsApart(sc.value, cs.value);
        Ok(r)
  }

  /** Replacing the palette leaves the scalar settings alone. */
  lemma ColorsApart(st: Options, cs: seq<string>)
    ensures forall k :: 0 <= k < 6 ==> Current(st.(colors := cs), k) == Current(st, k)
  {
  }

  /** Two settings agreeing on every scalar of the table and on the palette are equal. */
  lemma SettingsEqual(a: Options, b: Options)
    requires forall k :: 0 <= k < 6 ==> Current(a, k) == Current(b, k)
    requires a.colors == b.colors
    ensures a == b
  {
    assert Current(a, 0) == Current(b, 0) && Current(a, 1) == Current(b, 1) && Current(a, 2) == Current(b, 2);
    assert Current(a, 3) == Current(b, 3) && Current(a, 4) == Current(b, 4) && Current(a, 5) == Current(b, 5);
  }

  /** Distinct colour indices give distinct keys. */
  lemma ColorKeyInjective(i: nat, j: nat)
    requires ColorKey(i) == ColorKey(j)
    ensures i == j
  {
    assert ColorKey(i)[5..] == Decimal(i);
    assert ColorKey(j)[5..] == Decimal(j);
    DecimalInjective(i, j);
  }

  /** The table names 22 distinct keys, so no setting shadows another. */
  lemma KeysDistinct(j: nat, k: nat)
    requires j < k < NumKeys
    ensures KeyAt(j).0 != KeyAt(k).0
  {
    if k >= 6 {
      assert KeyAt(k).0[0] == 'c';
      if j >= 6 {
        if KeyAt(j).0 == KeyAt(k).0 {
          ColorKeyInjective(j - 6, k - 6);
        }
      } else {
        assert KeyAt(j).0[0] != 'c';
      }
    }
  }

  /** All sixteen colour keys, as `sprintf("color%d", i)` spells them: color0 .. color9, then color10 .. color15. */
  lemma ColorKeyEnds()
    ensures forall i: nat :: i < 10 ==> ColorKey(i) == "color" + [DigitChar(i)]
    ensures forall i: nat :: 10 <= i < 16 ==> ColorKey(i) == "color1" + [DigitChar(i - 10)]
    ensures ColorKey(0) == "color0" && ColorKey(9) == "color9" && ColorKey(15) == "color15"
  {
    forall i: nat | 10 <= i < 16
      ensures ColorKey(i) == "color1" + [DigitChar(i - 10)]
    {
      assert Decimal(i) == Decimal(1) + [DigitChar(i % 10)];
    }
  }

  /** An empty configuration leaves every setting at its current value. */
  lemma LookupEmpty(cur: Options)
    requires WellFormed(cur)
    ensures LookupConfig(Empty, cur) == Ok(cur)
  {
    var r := LookupConfig(Empty, cur).value;
    forall i | 0 <= i < 16
      ensures r.colors[i] == cur.colors[i]
    {
      assert Str(r.colors[i]) == Str(cur.colors[i]);
    }
    SettingsEqual(r, cur);
  }

  /** The built-in settings are well formed, and with no file, or a file binding nothing, they stay in force. */
  lemma DefaultsKept()
    ensures WellFormed(Defaults)
    ensures Load(None, Defaults) == Ok((Defaults, true))
    ensures LookupConfig(Empty, Defaults) == Ok(Defaults)
  {
    LookupEmpty(Defaults);
  }

  /** A scalar looked up twice, the second time with the first result as default, keeps the first result. */
  lemma KeptStable(cfg: Config, k: nat, a: Value, b: Value, c: Value)
    requires k < 6 && TagOf(a) == KeyAt(k).1
    requires k < 2 ==> INT_MIN <= a.n <= INT_MAX
    requires b == Kept(k, Setting(cfg, KeyAt(k).0, a)) && c == Kept(k, Setting(cfg, KeyAt(k).0, b))
    ensures c == b
  {
  }

  /**
   Looking up the same configuration again, with the settings of the first
   lookup as defaults, changes nothing: a reload of an unchanged file is
   stable.
   */
  lemma LookupStable(cfg: Config, cur: Options)
    requires WellFormed(cur) && LookupConfig(cfg, cur).Ok?
    ensures LookupConfig(cfg, LookupConfig(cfg, cur).value) == LookupConfig(cfg, cur)
  {
    var r := LookupConfig(cfg, cur).value;
    var r2 := LookupConfig(cfg, r).value;
    ScalarsStable(cfg, cur, r, r2);
    ColorsStable(cfg, cur, r, r2);
    SettingsEqual(r2, r);
  }

  /** The scalar half of LookupStable. */
  lemma ScalarsStable(cfg: Config, cur: Options, r: Options, r2: Options)
    requires WellFormed(cur) && LookupConfig(cfg, cur) == Ok(r)
    requires WellFormed(r) && LookupConfig(cfg, r) == Ok(r2)
    ensures forall k :: 0 <= k < 6 ==> Current(r2, k) == Current(r, k)
  {
    forall k | 0 <= k < 6
      ensures Current(r2, k) == Current(r, k)
    {
      KeptStable(cfg, k, Current(cur, k), Current(r, k), Current(r2, k));
    }
  }

  /** The palette half of LookupStable. */
  lemma ColorsStable(cfg: Config, cur: Options, r: Options, r2: Options)
    requires WellFormed(cur) && LookupConfig(cfg, cur) == Ok(r)
    requires WellFormed(r) && LookupConfig(cfg, r) == Ok(r2)
    ensures r2.colors == r.colors
  {
    forall i | 0 <= i < 16
      ensures r2.colors[i] == r.colors[i]
    {
      assert Str(r2.colors[i]) == Str(r.colors[i]);
    }
  }

  /**
   `lookup_config` as a whole, given the file's text when it can be accessed:
   no file keeps the current settings and flags them as defaults; otherwise
   the file is parsed, the settings looked up and the store dropped
   (`free_config`). Every fatal error of the parse or of a lookup is the
   result's error.
   */
  function Load(file: Option<string>, cur: Options): (r: Result<(Options, bool)>)
    requires WellFormed(cur)
    ensures file.None? ==> r == Ok((cur, true))
    ensures file.Some? ==> (r.Ok? <==> Parse(file.value).Ok? && AcceptableIn(Parse(file.value).value, 0, NumKeys))
    ensures file.Some? && Parse(file.value).Err? ==> r == Err(Parse(file.value).error)
    ensures file.Some? && r.Ok? ==> !r.value.1 && r.value.0 == LookupConfig(Parse(file.value).value, cur).value
    ensures r.Ok? ==> WellFormed(r.value.0)
  {
    match file
    case None => Ok((cur, true))
    case Some(text) =>
      var cfg :- Parse(text);
      var st :- LookupConfig(cfg, cur);
      Ok((st, false))
  }

  /**
   A scalar setting read from a file is the coerced value of the last
   `key = value` binding of that key in the file (an `int` setting wrapped
   to 32 bits), and keeps its current value when the file binds no such key.
   */
  lemma LoadScalar(text: string, cur: Options, k: nat)
    requires WellFormed(cur) && k < 6
    requires Load(Some(text), cur).Ok?
    ensures Tokens(text, 0).Ok?
    ensures var tok := LastFor(Window(Tokens(text, 0).value), KeyAt(k).0);
      && (tok.None? ==> Current(Load(Some(text), cur).value.0, k) == Current(cur, k))
      && (tok.Some? ==>
            (TokenToValue(tok.value).Ok?
             && Current(Load(Some(text), cur).value.0, k) == Kept(k, TokenToValue(tok.value).value)))
  {
    GetAfterParse(text, KeyAt(k).0);
  }

  /** The same for colour i: the last `color<i> = "..."` binding, or the current colour. */
  lemma LoadColor(text: string, cur: Options, i: nat)
    requires WellFormed(cur) && i < 16
    requires Load(Some(text), cur).Ok?
    ensures Tokens(text, 0).Ok?
    ensures var tok := LastFor(Window(Tokens(text, 0).value), ColorKey(i));
      && (tok.None? ==> Load(Some(text), cur).value.0.colors[i] == cur.colors[i])
      && (tok.Some? ==>
            (TokenToValue(tok.value).Ok?
             && Str(Load(Some(text), cur).value.0.colors[i]) == TokenToValue(tok.value).value))
  {
    GetAfterParse(text, ColorKey(i));
    var st := Load(Some(text), cur).value.0;
    assert Str(st.colors[i]) == Setting(Parse(text).value, ColorKey(i), Str(cur.colors[i]));
  }
}

=== FILE: store.dfy ===
/**
 The configuration store of parser.c: `set_var`, `get_var`, `get_var_type`
 and `free_config` over `struct config`.
 */
module Store {
  import opened Values

  datatype Variable = Variable(name: string, value: Value)

  /**
   `struct config`: of the VARIABLE_MAX slots of `vars` only the first
   `nvars` are live, so the live prefix is the whole model and `nvars` is its
   length.
   */
  datatype Config = Config(vars: seq<Variable>)

  function NVars(cfg: Config): nat
  {
    |cfg.vars|
  }

  /** The array bound: `0 <= nvars <= VARIABLE_MAX`. */
  predicate Bounded(cfg: Config)
  {
    |cfg.vars| <= VARIABLE_MAX
  }

  /** No two live entries share a name. */
  predicate Unique(cfg: Config)
  {
    forall i, j :: 0 <= i < j < |cfg.vars| ==> cfg.vars[i].name != cfg.vars[j].name
  }

  predicate Has(cfg: Config, name: string)
  {
    exists i :: 0 <= i < |cfg.vars| && cfg.vars[i].name == name
  }

  /** Entry i is the first one named `name`. */
  predicate IsFirst(vars: seq<Variable>, name: string, i: int)
  {
    0 <= i < |vars| && vars[i].name == name && forall j :: 0 <= j < i ==> vars[j].name != name
  }

  /** The scan of `set_var` and `get_var`: the index of the first entry named `name`. */
  function Find(vars: seq<Variable>, name: string): (r: Option<nat>)
    ensures r.Some? ==> IsFirst(vars, name, r.value)
    ensures r.None? ==> forall j :: 0 <= j < |vars| ==> vars[j].name != name
  {
    if |vars| == 0 then None
    else if vars[0].name == name then Some(0)
    else match Find(vars[1..], name)
      case None => None
      case Some(i) => Some(i + 1)
  }

  /** An empty store, as `init_config` starts with and `free_config` leaves. */
  const Empty: Config := Config([])

  /** `get_var`: the value of the first entry named `name`, or Nil when there is none. */
  function GetVar(cfg: Config, name: string): (r: Value)
    ensures !Has(cfg, name) ==> r == Nil
    ensures forall i :: IsFirst(cfg.vars, name, i) ==> r == cfg.vars[i].value
    ensures Unique(cfg) ==> forall i :: 0 <= i < |cfg.vars| && cfg.vars[i].name == name ==> r == cfg.vars[i].value
  {
    match Find(cfg.vars, name)
    case None => Nil
    case Some(i) =>
      forall k | IsFirst(cfg.vars, name, k)
        ensures k == i
      {
        FirstIsUnique(cfg.vars, name, i, k);
      }
      cfg.vars[i].value
  }

  lemma FirstIsUnique(vars: seq<Variable>, name: string, i: int, k: int)
    requires IsFirst(vars, name, i) && IsFirst(vars, name, k)
    ensures i == k
  {
  }

  /**
   `set_var`: overwrite the value of the first entry named `name`, keeping its
   position and the count, or append a new entry when there is none. The C code
   has no bound check before `vars[nvars++]`, so appending to a full store is
   a precondition here (the parser turns it into StoreFull first).
   */
  function SetVar(cfg: Config, name: string, v: Value): (r: Config)
    requires Bounded(cfg)
    requires Has(cfg, name) || |cfg.vars| < VARIABLE_MAX
    ensures Bounded(r)
    ensures Unique(cfg) ==> Unique(r)
    ensures Has(cfg, name) ==> |r.vars| == |cfg.vars|
    ensures !Has(cfg, name) ==> r.vars == cfg.vars + [Variable(name, v)]
    ensures forall i :: 0 <= i < |cfg.vars| ==> r.vars[i].name == cfg.vars[i].name
    ensures forall i :: 0 <= i < |cfg.vars| && cfg.vars[i].name != name ==> r.vars[i] == cfg.vars[i]
    ensures GetVar(r, name) == v
    ensures forall other :: other != name ==> GetVar(r, other) == GetVar(cfg, other)
  {
    match Find(cfg.vars, name)
    case Some(i) =>
      var r := Config(cfg.vars[i := Variable(name, v)]);
      assert IsFirst(r.vars, name, i);
      SameNamesLookup(cfg, r, name);
      r
    case None =>
      var r := Config(cfg.vars + [Variable(name, v)]);
      assert IsFirst(r.vars, name, |cfg.vars|);
      AppendLookup(cfg, name, v);
      r
  }

  /**
   Two stores with the same names at the same positions, whose entries differ
   only where the name is `name`, agree on every other name.
   */
  lemma SameNamesLookup(cfg: Config, r: Config, name: string)
    requires |r.vars| == |cfg.vars|
    requires forall k :: 0 <= k < |cfg.vars| ==> r.vars[k].name == cfg.vars[k].name
    requires forall k :: 0 <= k < |cfg.vars| && cfg.vars[k].name != name ==> r.vars[k] == cfg.vars[k]
    ensures forall other :: other != name ==> GetVar(r, other) == GetVar(cfg, other)
  {
    forall other | other != name
      ensures GetVar(r, other) == GetVar(cfg, other)
    {
      match Find(cfg.vars, other)
      case None =>
      case Some(j) =>
        assert IsFirst(r.vars, other, j);
    }
  }

  /** Appending an entry for a new name leaves every other name's lookup alone. */
  lemma AppendLookup(cfg: Config, name: string, v: Value)
    requires !Has(cfg, name)
    ensures forall other :: other != name ==> GetVar(Config(cfg.vars + [Variable(name, v)]), other) == GetVar(cfg, other)
  {
    var r := Config(cfg.vars + [Variable(name, v)]);
    forall other | other != name
      ensures GetVar(r, other) == GetVar(cfg, other)
    {
      match Find(cfg.vars, other)
      case None =>
      case Some(j) =>
        assert IsFirst(r.vars, other, j);
    }
  }

  /**
   `get_var_type`: the value when its tag is the one asked for; otherwise the
   fatal type error, which also covers an absent name (its Nil tag differs
   from every requested type but TNil).
   */
  function GetVarType(cfg: Config, name: string, t: Tag): (r: Result<Value>)
    ensures r.Ok? <==> TagOf(GetVar(cfg, name)) == t
    ensures r.Ok? ==> r.value == GetVar(cfg, name)
    ensures r.Err? ==> r.error == TypeMismatch(name, TypeName(Code(t)), TypeName(Code(TagOf(GetVar(cfg, name)))))
  {
    var v := GetVar(cfg, name);
    if TagOf(v) != t then Err(TypeMismatch(name, TypeName(Code(t)), TypeName(Code(TagOf(v)))))
    else Ok(v)
  }

  /** `free_config`: no entry stays live. */
  function FreeConfig(cfg: Config): (r: Config)
    ensures NVars(r) == 0
    ensures forall name :: GetVar(r, name) == Nil
  {
    Empty
  }

  /** Setting twice the same name keeps only the last value and does not grow the store. */
  lemma SetVarOverwrites(cfg: Config, name: string, v: Value, w: Value)
    requires Bounded(cfg) && (Has(cfg, name) || |cfg.vars| < VARIABLE_MAX)
    ensures Has(SetVar(cfg, name, v), name)
    ensures SetVar(SetVar(cfg, name, v), name, w) == SetVar(cfg, name, w)
    ensures NVars(SetVar(SetVar(cfg, name, v), name, w)) == NVars(SetVar(cfg, name, v))
  {
    var c1 := SetVar(cfg, name, v);
    match Find(cfg.vars, name)
    case Some(i) =>
      assert c1.vars == cfg.vars[i := Variable(name, v)];
      assert IsFirst(c1.vars, name, i);
      assert Find(c1.vars, name) == Some(i);
    case None =>
      var n := |cfg.vars|;
      assert c1.vars == cfg.vars + [Variable(name, v)];
      assert IsFirst(c1.vars, name, n);
      assert Find(c1.vars, name) == Some(n);
      assert c1.vars[n := Variable(name, w)] == cfg.vars + [Variable(name, w)];
  }

  /** A strict lookup of a name just set with a value succeeds with that value, and fails for any other tag. */
  lemma GetVarTypeAfterSet(cfg: Config, name: string, v: Value, t: Tag)
    requires Bounded(cfg) && (Has(cfg, name) || |cfg.vars| < VARIABLE_MAX)
    ensures GetVarType(SetVar(cfg, name, v), name, t).Ok? <==> TagOf(v) == t
    ensures TagOf(v) == t ==> GetVarType(SetVar(cfg, name, v), name, t) == Ok(v)
  {
  }

  /** A strict lookup of an absent name always fails unless Nil itself is asked for. */
  lemma GetVarTypeAbsent(cfg: Config, name: string, t: Tag)
    requires !Has(cfg, name) && t != TNil
    ensures GetVarType(cfg, name, t) == Err(TypeMismatch(name, TypeName(Code(t)), "nil"))
  {
  }
}

=== FILE: values.dfy ===
/**
 The data model of the configuration parser (parser.h): the tagged value,
 the capacity constants, and the error and result types that replace every
 `exit(1)` of the C code.
 */
module Values {

  /** Number of entries of the fixed `vars` array of a config. */
  const VARIABLE_MAX: nat := 1024

  /** Size of the fixed character buffer of one token. */
  const STRING_MAX: nat := 256

  /** Largest `long` on the LP64 platforms the program targets; `strtol` saturates here. */
  const LONG_MAX: int := 0x7fff_ffff_ffff_ffff

  /** The tag enum `T_NIL, T_STR, T_INT, T_REAL`. */
  datatype Tag = TNil | TStr | TInt | TReal

  /** The numeric value the C enum gives each tag. */
  function Code(t: Tag): (c: nat)
    ensures c < 4
  {
    match t
    case TNil => 0
    case TStr => 1
    case TInt => 2
    case TReal => 3
  }

  /**
   The tagged union `struct value`. A datatype carries exactly one variant,
   so the payload can only be read under its own tag. A Real keeps the raw
   text of its token instead of the double `strtod` would compute.
   */
  datatype Value = Nil | Str(s: string) | Int(n: int) | Real(text: string)

  function TagOf(v: Value): Tag
  {
    match v
    case Nil => TNil
    case Str(_) => TStr
    case Int(_) => TInt
    case Real(_) => TReal
  }

  /** `type_to_cstr`: the name of a tag code; every code other than 1, 2, 3 reads as "nil". */
  function TypeName(code: int): (r: string)
    ensures code == 1 ==> r == "str"
    ensures code == 2 ==> r == "int"
    ensures code == 3 ==> r == "real"
    ensures r == "nil" <==> code !in {1, 2, 3}
  {
    if code == 1 then "str"
    else if code == 2 then "int"
    else if code == 3 then "real"
    else "nil"
  }

  /** Every fatal error of the C code, plus the undefined behaviours the model makes explicit. */
  datatype Error =
    | UnterminatedString          // a quote with no closing quote before end of input (the C loop never stops)
    | TokenTooLong                // a token whose characters do not fit the 256-byte buffer (the 257th push writes past it)
    | NumberFillsBuffer           // a digit-leading value of 256 characters without NUL: `strstr` and `strtol` find no terminator
    | UnknownValue(token: string) // "error: unknown value: <token>", the token printed up to its first NUL
    | UnexpectedEof               // "error: unexpected EOF" after `=`
    | StoreFull                   // a new name when all VARIABLE_MAX entries are used (the C code writes past the array)
    | TypeMismatch(name: string, expected: string, actual: string) // "expected '<name>' to be type '<expected>', but got '<actual>'"

  datatype Option<+T> = None | Some(value: T)

  datatype Result<+T> = Ok(value: T) | Err(error: Error) {
    predicate IsFailure() { Err? }

    function PropagateFailure<U>(): Result<U>
      requires Err?
    {
      Err(error)
    }

    function Extract(): T
      requires Ok?
    {
      value
    }
  }

  /** The smaller of two integers: C's `MIN`, and the clamp of `strtol`. */
  function Min(a: int, b: int): (r: int)
    ensures r <= a && r <= b
    ensures r == a || r == b
  {
    if a < b then a else b
  }

  /**
   The C string a character buffer denotes: everything before the first NUL.
   `strndup`, `strcmp` and `strstr` all stop there.
   */
  function CStr(s: string): (r: string)
    ensures r <= s
    ensures '\0' !in r
    ensures |r| < |s| ==> s[|r|] == '\0'
  {
    if |s| == 0 || s[0] == '\0' then [] else [s[0]] + CStr(s[1..])
  }

  /** The tag codes are 0..3 in declaration order, and their names tell them apart. */
  lemma TagCodesOrdered()
    ensures Code(TNil) == 0 && Code(TNil) < Code(TStr) < Code(TInt) < Code(TReal) == 3
    ensures forall a: Tag, b: Tag :: TypeName(Code(a)) == TypeName(Code(b)) ==> a == b
  {
  }

  /** A string without NUL is its own C string. */
  lemma {:induction false} CStrOfPlain(s: string)
    requires '\0' !in s
    ensures CStr(s) == s
  {
    if |s| > 0 {
      CStrOfPlain(s[1..]);
    }
  }
}
